=== FILE: README.md ===
# Design-system core, modelled in Dafny

This project models the behavioural core of a React design-system library. It has four parts:

- **The toast store.** This is `createToastManager`, which has `add`, `remove`, `removeAll`, `notify` and `subscribe`.
- **The life of one toast.** This covers the component's `isVisible` and `isExiting` state and its auto-close timer. It also covers the 300 ms exit timer that every `handleClose` arms, and where toasts and their container are anchored.
- **The form controls.** These are the text input and the dropdown, plus the typography components `Text` and `Heading`.
- **The colour-mode provider and the demo form.** The provider holds a colour mode and mirrors it into storage and the document. The demo page's form validates a name and adds one toast per submit.

Everything is a pure function over immutable datatypes. Stateful parts are transition functions (`Step`), driven by sequences of events (`Run`). Lemmas over those runs state what holds after any sequence.

Modules, one concern each:

- `Js` and `ClassNames` (`js.dfy`): the JavaScript semantics the components lean on.
  - Truthiness of optional strings.
  - Destructuring defaults.
  - `startsWith` and `endsWith`.
  - `trim`, with the ECMAScript white-space and line-terminator set.
  - The list of arguments passed to the class joiner. Falsy entries are dropped.
- `ToastStore`: the store.
  - It holds a sequence of records and a list of listeners.
  - It also keeps a log of every callback it ran, and what each callback saw of the store. With this log the model can state who is notified and when.
- `ToastLifecycle`: one mounted `Toast` component.
  - Timers are explicit deadlines.
  - A timer event fires only once the clock has reached its deadline.
  - An event that is not enabled changes nothing.
- `ToastLayout`: the anchor classes of `ToastContainer`, and the position table of a single `Toast`.
- `FormField`: the parts shared by the text input and the dropdown.
  - The field id.
  - The size table.
  - The helper and error text, with `aria-describedby`.
- `TextInput` and `Dropdown`: the two form controls.
- `TypeScale`, `TextStyle` and `HeadingStyle`: the typography tables and class lists.
- `Theme`: the colour-mode provider.
- `DemoForm`: `validateForm` and `handleSubmit` of the demo page.

Inputs that come from outside the program are parameters:

- The toast id that `Date.now()` and `Math.random()` produce.
- The generated input and dropdown ids.
- The saved `color-mode` value.
- The result of the `prefers-color-scheme` media query.
- The clock.

Where the code and a reader's expectations differ, the model follows the code:

- `remove` notifies the listeners even when no record has that id.
- `remove` and `removeAll` never run a record's `onClose`. Only the component's close path runs it, through the wrapper that `add` installs.
- Nothing guarantees toast ids are unique. Two equal ids are removed together (`ToastStore.CollidingIdsRemovedTogether`).
- A negative `duration` is not clamped. It simply never arms the timer.
- A `duration` of 2^31 ms or more does not wait that long. The timer delay is converted to a 32-bit signed integer, and a delay that wraps to a negative value fires at once (`ToastLifecycle.HugeDurationClosesAtOnce`).
- `handleClose` is not deduplicated, and a manual close does not cancel the auto-close timer. So `onClose` can run twice.
- The store's `subscribe` is never exposed on the manager object. `ToastProvider` instead polls the store on an interval.

## Model

The class-list builders `TextStyle.ClassArgs`, `HeadingStyle.ClassArgs` and `TextInput.InputClasses` only compute argument lists, so they have no rows of their own. What their lists mean is stated by the lemmas about them (`TextStyle.ModifierClasses`, `TextStyle.WeightAndAlignClasses`, `TextStyle.CallerClassLast`, `HeadingStyle.ClassListShape`, `HeadingStyle.TruncateClass`, `TextInput.IconPadding`, `TextInput.SizeChoosesClass` and `TextInput.ErrorBorderSlot`).

| member | source | states |
|---|---|---|
| ToastStore.Create | src/components/design-system/feedback/toast.tsx:232-234 | A new manager has no toasts, no listeners, and has run no callback. |
| ToastStore.Notify | src/components/design-system/feedback/toast.tsx:243-245 | Every registered listener runs once, in registration order, and sees the current toasts. The toasts and the listener list are unchanged. |
| ToastStore.Add | src/components/design-system/feedback/toast.tsx:251-266 | Appends exactly one record at the end, and every earlier record stays in place. The new record carries the minted id and every caller option unchanged. Its `onClose` is the wrapper that removes this id and then calls the caller's `onClose`. Listeners are notified once, after the append, and the id is returned. |
| ToastStore.Without | src/components/design-system/feedback/toast.tsx:268 | The filter keeps exactly the records with a different id, each as many times as it occurred, and drops every record with the id. With an absent id it returns the sequence unchanged. |
| ToastStore.Remove | src/components/design-system/feedback/toast.tsx:267-270 | The new sequence is the filter of the old one: every record with the id is dropped, and every other record is kept as many times as it occurred. The listeners are notified once, seeing the new store, whether or not anything was dropped. |
| ToastStore.RemoveAll | src/components/design-system/feedback/toast.tsx:271-274 | Whatever the prior contents, the store ends empty, and the listeners are notified once. |
| ToastStore.Close | src/components/design-system/feedback/toast.tsx:256-259 | The wrapped `onClose` removes its record, notifying the listeners, and only then calls the caller's `onClose`, if there is one. |
| ToastStore.Subscribe | src/components/design-system/feedback/toast.tsx:236-241 | The listener is appended and nothing else changes. |
| ToastStore.Drop | src/components/design-system/feedback/toast.tsx:239 | The listener filter keeps every other listener as many times as it occurred, and drops every occurrence of the given one. |
| ToastStore.Unsubscribe | src/components/design-system/feedback/toast.tsx:238-240 | The listener list becomes its filter: exactly the given listener is removed, and every other listener is kept as many times as it occurred. The toasts and the log are untouched. |
| ToastStore.WithoutDistributes | src/components/design-system/feedback/toast.tsx:268 | The filter distributes over concatenation, so the surviving records keep their relative order. |
| ToastStore.DropDistributes | src/components/design-system/feedback/toast.tsx:239 | The listener filter distributes over concatenation, so the remaining listeners keep their registration order. |
| ToastStore.Apply | src/components/design-system/feedback/toast.tsx:251-274 | One operation keeps the listener list and only extends the log. `add` appends one record with its id after the earlier ones. Every other operation keeps only records that were already there, and `remove` keeps none with its id. |
| ToastStore.AddThenRemove | src/components/design-system/feedback/toast.tsx:251-270 | `remove` undoes `add`: if no earlier record has the minted id, removing that id gives back the earlier sequence exactly. Together the two calls notify each listener twice. |
| ToastStore.RemoveIdempotent | src/components/design-system/feedback/toast.tsx:267-270 | A second `remove` of the same id leaves the sequence as the first did, but notifies again. |
| ToastStore.RemoveAbsentStillNotifies | src/components/design-system/feedback/toast.tsx:267-270 | Removing an absent id leaves the sequence unchanged, yet every listener runs once. |
| ToastStore.RemoveKeepsOthersInOrder | src/components/design-system/feedback/toast.tsx:268 | Removing the record at position k leaves the records before k and after k, in order, minus any others with that id. |
| ToastStore.CloseTwiceLikeOnce | src/components/design-system/feedback/toast.tsx:256-259 | A second run of the wrapper leaves the store as the first run did. The caller's `onClose` runs again, after a second notification. |
| ToastStore.UserCloseSeesRecordGone | src/components/design-system/feedback/toast.tsx:256-259 | When the caller's `onClose` runs, its record is already absent from the store. |
| ToastStore.SubscribeUnsubscribeRoundTrip | src/components/design-system/feedback/toast.tsx:236-241 | For a new listener, subscribing and then calling the returned unsubscribe restores the listener list exactly. |
| ToastStore.UnsubscribeStopsOnlyThatListener | src/components/design-system/feedback/toast.tsx:236-245 | After unsubscribing, a notification never reaches that listener but still reaches every other registered listener. |
| ToastStore.RunKeepsIdsDistinct | src/components/design-system/feedback/toast.tsx:251-274 | Suppose the minted ids are pairwise distinct and new to the store. Then every sequence of `add`, `remove`, `removeAll` and close keeps the ids in the store pairwise distinct. |
| ToastStore.RunNotifiesOncePerOperation | src/components/design-system/feedback/toast.tsx:243-274 | Over any operation sequence the listener list never changes. The log grows by exactly one broadcast per operation, plus one entry per caller `onClose` run. |
| ToastStore.CollidingIdsRemovedTogether | src/components/design-system/feedback/toast.tsx:252-270 | When the id generator repeats, two records share an id, and a single `remove` drops both. |
| ToastLifecycle.Mount | src/components/design-system/feedback/toast.tsx:101-115 | A mounted toast is visible and not exiting, with no exit timer. The auto-close timer is armed exactly when `duration > 0`. It is due after the delay `setTimeout` really waits, which is `duration` itself below 2^31 ms. |
| ToastLifecycle.SettingsOf | src/components/design-system/feedback/toast.tsx:89-100 | The parameter defaults: an absent duration is 5000 ms, `closable` is false only when `false` is passed, and a given position or variant is kept, with top-right and info as defaults. The action button is used exactly when `actionText` is a non-empty string and `onAction` is given. |
| ToastLifecycle.TimerDelay | src/components/design-system/feedback/toast.tsx:106-108 | The delay a timer waits for a given duration. It is the duration itself for 0 up to 2^31 - 1, and 0 for negative values down to -2^31. It is always below 2^31. It is 0 exactly when the duration modulo 2^32 is 0 or at least 2^31, and otherwise it equals the duration modulo 2^32. |
| ToastLifecycle.TimerDelayWraps | src/components/design-system/feedback/toast.tsx:106-108 | A duration from 2^32 up to 2^32 + 2^31 - 1 waits the duration minus 2^32, so 2^32 + 5 ms waits 5 ms. |
| ToastLifecycle.HandleClose | src/components/design-system/feedback/toast.tsx:117-125 | `handleClose` marks the toast exiting and arms one more exit timer, due 300 ms from now, after those already pending. The clock, visibility, mount state and auto-close timer are unchanged. |
| ToastLifecycle.Step | src/components/design-system/feedback/toast.tsx:101-181 | Only elapsed time moves the clock, and every callback is stamped with the event's time. Exiting is never undone and a hidden toast never reappears. Exiting starts only on a close click, an action click or the auto-close timer. `onClose` runs exactly when a due exit timer fires, and `onAction` exactly when the rendered action button is clicked. A close click on a rendered, closable toast, an action click on a rendered action button, and a due auto-close timer each run `handleClose`; a click on a toast that is not rendered does nothing. Elapsed time changes only the clock. A due exit timer hides the toast and consumes its deadline, leaving everything else as it was. Unmounting clears the mounted flag and the auto-close timer and nothing else. |
| ToastLifecycle.Render | src/components/design-system/feedback/toast.tsx:137-189 | The body of a mounted toast. Something is rendered exactly while the toast is visible. The close button follows `closable` (default true), the action button follows `actionText && onAction`, the title follows `title`, and the slide-out follows `isExiting`. |
| ToastLifecycle.ExitingIsPermanent | src/components/design-system/feedback/toast.tsx:117-125 | Once a toast is exiting, no event makes it stop exiting. |
| ToastLifecycle.HiddenIsPermanent | src/components/design-system/feedback/toast.tsx:117-139 | Once hidden, a toast stays hidden and renders nothing, whatever happens next. |
| ToastLifecycle.NoAutoCloseWithoutPositiveDuration | src/components/design-system/feedback/toast.tsx:105-115 | Start from a visible toast with no timers. Without clicks it stays visible, arms no timer and runs no callback, for any number of events and any elapsed time. |
| ToastLifecycle.MountWithoutDurationIsQuiet | src/components/design-system/feedback/toast.tsx:105-106 | A zero or negative duration mounts a toast with no timer pending. |
| ToastLifecycle.MountIsTimed | src/components/design-system/feedback/toast.tsx:105-110 | A positive duration mounts a toast with exactly one close pending, due at mount time plus the timer delay. |
| ToastLifecycle.HugeDurationClosesAtOnce | src/components/design-system/feedback/toast.tsx:105-110 | A duration of 2^31 ms wraps to a negative delay, which is raised to 0. The auto-close timer is due at mount time, and its first firing starts the exit. |
| ToastLifecycle.AutoCloseTiming | src/components/design-system/feedback/toast.tsx:105-125 | Let d be the timer delay of a positive duration (d is the duration below 2^31 ms). With no clicks, the toast starts exiting no earlier than d after mounting. It hides no earlier than d + 300, the only callback is `onClose`, at d + 300 or later, and `onClose` runs at most as many times as closes are pending. |
| ToastLifecycle.ActionButtonAlsoCloses | src/components/design-system/feedback/toast.tsx:163-170 | The action button runs `onAction` at the click time and then starts the exit exactly as the close button does. |
| ToastLifecycle.DoubleClickRunsOnCloseTwice | src/components/design-system/feedback/toast.tsx:117-125 | Two close clicks within the exit window run `onClose` twice, both at 300 ms. |
| ToastLifecycle.CloseNearDeadlineRunsOnCloseTwice | src/components/design-system/feedback/toast.tsx:105-125 | Suppose a close click comes 100 ms before the default 5000 ms deadline. The auto-close timer still fires, and `onClose` runs at 5200 ms and again at 5300 ms. |
| ToastLifecycle.UnmountKeepsExitTimer | src/components/design-system/feedback/toast.tsx:111-124 | Unmounting clears the auto-close timer. A pending exit timer still fires and runs `onClose`. |
| ToastLifecycle.DeliverLikeSingleClose | src/components/design-system/feedback/toast.tsx:121-124 | However many `onClose` runs the component makes, the store ends as after one run of the record's wrapper. With no `onClose` run, the store is untouched. |
| ToastLifecycle.AddedRecordClosesItself | src/components/design-system/feedback/toast.tsx:251-270 | A record built by `add` removes exactly its own id from the store when its component closes it. |
| ToastLayout.PositionNameRoundTrip | src/components/design-system/feedback/toast.tsx:7 | Each of the six positions is named by its own string, and the name gives the position back. |
| ToastLayout.ContainerEdge | src/components/design-system/feedback/toast.tsx:197-202 | The container pins to the top exactly for the three top positions, and the default is top-right. |
| ToastLayout.ContainerSide | src/components/design-system/feedback/toast.tsx:203 | The container pins left exactly for the two left positions and right exactly for the two right ones, and centres the rest. |
| ToastLayout.ContainerClasses | src/components/design-system/feedback/toast.tsx:197-203 | The container passes its fixed layout classes, then `top-0` exactly for the three top positions (otherwise `bottom-0`), then `left-0` exactly for the two left positions, `right-0` exactly for the two right ones, and the translate-centring classes for the two centre positions. The default position is top-right. |
| ToastLayout.ContainerAnchorInjective | src/components/design-system/feedback/toast.tsx:197-203 | Different positions give different container anchor pairs. |
| ToastLayout.ToastPositionClasses | src/components/design-system/feedback/toast.tsx:128-135 | A toast's own position class starts with `top` exactly for the three top positions. It ends with `left-4` exactly for the two left positions, and with `right-4` exactly for the two right ones. |
| ToastLayout.ToastEdgeAgreesWithContainer | src/components/design-system/feedback/toast.tsx:128-135 | A toast's own position class starts with `top` exactly when a container at that position pins to the top. |
| ToastLayout.ToastSideAgreesWithContainer | src/components/design-system/feedback/toast.tsx:128-135 | A toast's own position class ends with `left-4` or `right-4` exactly when a container at that position pins to that side. |
| FormField.FieldId | src/components/design-system/data-entry/text-input.tsx:66 | The field id is the caller's id when it is a non-empty string, otherwise the generated one. |
| FormField.SizeClassDistinctAndDefault | src/components/design-system/data-entry/text-input.tsx:69-73 | The three sizes have different classes, and leaving the size out gives the `md` classes. |
| FormField.ResolveMessages | src/components/design-system/data-entry/text-input.tsx:104-136 | The error text is shown exactly when `error` is truthy. The helper text is shown exactly when `helperText` is truthy and there is no error. The two are never shown together, and `aria-describedby` names exactly the element that is shown. |
| TextInput.Render | src/components/design-system/data-entry/text-input.tsx:66-110 | The input id is the caller's or the generated one. The label is shown exactly when `label` is truthy, and `aria-invalid` follows `hasError`, which defaults to false. |
| TextInput.DescribedByPrecedence | src/components/design-system/data-entry/text-input.tsx:104-110 | `aria-describedby` is `<id>-error` when there is an error, otherwise `<id>-description` when there is helper text, otherwise absent. |
| TextInput.IconPadding | src/components/design-system/data-entry/text-input.tsx:97-98 | Left padding is present exactly with a leading icon, and right padding exactly with a trailing icon, each independent of the other. |
| TextInput.ErrorBorderSlot | src/components/design-system/data-entry/text-input.tsx:91-101 | The error border is passed to the class joiner exactly when `hasError` is set, and no other slot holds it. |
| TextInput.SizeChoosesClass | src/components/design-system/data-entry/text-input.tsx:69-96 | The input carries its size's classes, and the `md` classes when no size is given. |
| TextInput.InvalidIndependentOfErrorText | src/components/design-system/data-entry/text-input.tsx:99-110 | An error message without `hasError` still shows, but leaves the input without `aria-invalid` and without the error border. |
| Dropdown.Initial | src/components/design-system/data-entry/dropdown.tsx:85-86 | The list starts closed, with the `value` prop selected. |
| Dropdown.HandleKeyDown | src/components/design-system/data-entry/dropdown.tsx:113-132 | Escape closes the list without preventing the default. Enter, Space and ArrowDown open a closed list and prevent the default, and do nothing to an open one. Any other key does nothing. No key touches the selection. |
| Dropdown.HandleSelect | src/components/design-system/data-entry/dropdown.tsx:134-140 | A disabled option changes nothing and reports nothing. Any other option becomes the selection, closes the list, and is reported to `onChange`. |
| Dropdown.TriggerClick | src/components/design-system/data-entry/dropdown.tsx:174 | An enabled trigger toggles the list, and a disabled one does nothing. The selection is unchanged. |
| Dropdown.SyncValue | src/components/design-system/data-entry/dropdown.tsx:91-93 | A new `value` prop replaces the selection and leaves the open state alone. |
| Dropdown.SelectedOption | src/components/design-system/data-entry/dropdown.tsx:142 | The result is the first option whose value is the selection, and it exists exactly when some option has that value. |
| Dropdown.DisplayText | src/components/design-system/data-entry/dropdown.tsx:142-194 | Without a matching option the button shows the placeholder, which defaults to "Select an option...". With a match it shows the label of an option whose value is the selection. |
| Dropdown.DisplayTextIsFirstMatchOrPlaceholder | src/components/design-system/data-entry/dropdown.tsx:142-194 | The button shows the label of the first option matching the selection. Without a match it shows the placeholder, which defaults to "Select an option...". |
| Dropdown.MutedText | src/components/design-system/data-entry/dropdown.tsx:193-194 | With nothing selected, the placeholder is shown muted. A non-empty selection is never muted. An option whose value is empty is shown with its label but muted. |
| Dropdown.Messages | src/components/design-system/data-entry/dropdown.tsx:181-259 | Helper text, error text and `aria-describedby` follow the same precedence as the text input, with the dropdown's own id. |
| Dropdown.Step | src/components/design-system/data-entry/dropdown.tsx:91-174 | One event reports at most one value to `onChange`. Keys and trigger clicks never touch the selection, and a disabled dropdown ignores them. On an enabled dropdown a key runs `handleKeyDown`, and a trigger click always runs the trigger's toggle. A `value` change replaces the selection. A report happens only for a click on an enabled option in the open list: that option's value is reported, selected, and the list closes. |
| Dropdown.ChangesAreEnabledOptions | src/components/design-system/data-entry/dropdown.tsx:134-140 | Over any event sequence, `onChange` is only called with the value of an enabled option. |
| Dropdown.SelectionProvenance | src/components/design-system/data-entry/dropdown.tsx:86-140 | After any event sequence, the selection is one of three things: the initial one, a value the `value` prop changed to, or an enabled option's value. |
| Dropdown.EscapeCloses | src/components/design-system/data-entry/dropdown.tsx:115-117 | On an enabled dropdown, Escape closes the list whatever its state and keeps the selection. |
| Dropdown.PickEnabledOption | src/components/design-system/data-entry/dropdown.tsx:134-140 | Clicking an enabled option in the open list selects it and closes the list. It reports the option's value exactly once. |
| Dropdown.PickDisabledOption | src/components/design-system/data-entry/dropdown.tsx:135 | Clicking a disabled option changes nothing and reports nothing. |
| Dropdown.TriggerClickTwice | src/components/design-system/data-entry/dropdown.tsx:174 | Two trigger clicks restore the state, and a disabled trigger ignores clicks. |
| Dropdown.UnpreventedEnterThenClickCloses | src/components/design-system/data-entry/dropdown.tsx:113-132 | On an open list, Enter and Space are not prevented, so the browser's follow-up click on the trigger closes the list again with the selection kept. On a closed list they are prevented and only open it. |
| TypeScale.WeightClassInjective | src/components/design-system/typography/text.tsx:34-40 | Different weights give different classes. |
| TextStyle.FinalSize | src/components/design-system/typography/text.tsx:97-98 | An explicit size wins, and otherwise the variant's default size is used. |
| TextStyle.DefaultSizes | src/components/design-system/typography/text.tsx:43-98 | Without a size: `p` and `span` get base, `label` gets sm, `caption` and `helper` get xs. A bare `Text` is a `p`, so it gets base. |
| TextStyle.ElementTag | src/components/design-system/typography/text.tsx:112-147 | `label` renders a label element, `span` renders a span, and `p`, `caption` and `helper` render a paragraph. |
| TextStyle.ModifierClasses | src/components/design-system/typography/text.tsx:82-106 | `muted`, `truncate` and `preserveBreaks` each add their own class. Each class appears only when its flag is set or the caller's `className` is that class. |
| TextStyle.WeightAndAlignClasses | src/components/design-system/typography/text.tsx:81-103 | The weight slot holds the given weight's class and is empty without a weight; the `label` variant's own class still carries `font-medium`. A given alignment's class is passed, and left when none is given. |
| TextStyle.CallerClassLast | src/components/design-system/typography/text.tsx:100-109 | The variant's class and then the caller's `className` close the argument list. A non-empty `className` is the last class. |
| HeadingStyle.LevelOfTag | src/components/design-system/typography/heading.tsx:53 | A tag that names a level is exactly `h` followed by that level's digit. |
| HeadingStyle.Tag | src/components/design-system/typography/heading.tsx:53 | The element name is `h` followed by the level's decimal digit. |
| HeadingStyle.TagRoundTrip | src/components/design-system/typography/heading.tsx:53 | Each level renders its own element `h1` to `h6`, and the element gives the level back. |
| HeadingStyle.SizeClassInjective | src/components/design-system/typography/heading.tsx:18-25 | The six levels have six different size classes. |
| HeadingStyle.ClassListShape | src/components/design-system/typography/heading.tsx:63-69 | The level's size class and `text-foreground` are always present. The weight slot holds the given weight's class and is empty without a weight; every size class carries its own `font-*` weight. A given alignment's class is passed, and left when none is given. The caller's `className` comes last. |
| HeadingStyle.TruncateClass | src/components/design-system/typography/heading.tsx:48-67 | `truncate` adds its class. The class appears only when asked for or when it is named by the caller's `className`. |
| Theme.InitialMode | src/theme/ThemeProvider.tsx:29-38 | The initial mode is a truthy saved value, or else `defaultColorMode` (default `light`). It is never empty. |
| Theme.ThemeFor | src/theme/ThemeProvider.tsx:40 | The light tokens are chosen exactly for the mode `light`; every other mode gets the dark tokens. |
| Theme.Toggle | src/theme/ThemeProvider.tsx:42-44 | The toggle always yields `light` or `dark`, and yields `dark` exactly from `light`. |
| Theme.ToggleInvolution | src/theme/ThemeProvider.tsx:42-44 | Toggling twice gives the mode back exactly when the mode is `light` or `dark`. |
| Theme.ToggleTwiceNormalises | src/theme/ThemeProvider.tsx:34-43 | An unchecked saved value such as `blue` toggles to `light` and then `dark`, never back to itself. |
| Theme.Persist | src/theme/ThemeProvider.tsx:47-61 | After persisting, the saved value and `data-theme` equal the mode, and the `dark` class is present exactly in `dark` mode. |
| Theme.Change | src/theme/ThemeProvider.tsx:47-61 | Setting the current mode changes nothing. Setting a new mode persists it. |
| Theme.Mount | src/theme/ThemeProvider.tsx:31-80 | As written, mounting ends in the initial mode, with storage, attribute and class mirroring it. |
| Theme.MountIntended | src/theme/ThemeProvider.tsx:63-69 | Mounting as the preference effect intends: a saved value wins, and otherwise the system preference decides. The result is mirrored. |
| Theme.MountIgnoresPreference | src/theme/ThemeProvider.tsx:47-69 | As written, the media-query result has no influence on the mounted state. |
| Theme.FreshVisitWithDarkPreference | src/theme/ThemeProvider.tsx:63-69 | With nothing saved, no default and a dark system preference, the written mount gives `light` where the intended one gives `dark`. |
| Theme.MountsAgreeWhenSaved | src/theme/ThemeProvider.tsx:31-69 | With a saved value, the written and the intended mount agree. |
| Theme.Step | src/theme/ThemeProvider.tsx:42-75 | An event that keeps the mode changes nothing, and one that changes it leaves storage, attribute and class mirroring the new mode. The toggle flips the mode, an explicit choice sets it, and a preference change does nothing once something is saved. |
| Theme.SystemChangeOnlyWithoutSaved | src/theme/ThemeProvider.tsx:71-75 | A preference change is applied only when nothing is saved, and then it sets the preferred mode. |
| Theme.RunKeepsSettled | src/theme/ThemeProvider.tsx:47-61 | After any sequence of toggles, explicit choices and preference changes, the saved value and `data-theme` equal the mode. The `dark` class is present exactly in `dark` mode. |
| Theme.RunIgnoresSystemChanges | src/theme/ThemeProvider.tsx:71-77 | Once mounted, preference changes are never applied. A run ends where the same run without them ends. |
| Theme.DefaultContextIsInertLight | src/theme/ThemeProvider.tsx:11-16 | Outside a provider, the context is a light-mode context with the light theme, and its setters change nothing. |
| Theme.ThemeAndDarkClass | src/theme/ThemeProvider.tsx:40-59 | The theme is light exactly in `light` mode. The dark theme without the `dark` class occurs exactly for a mode other than `light` and `dark`. |
| Js.TrimEmptyIffAllWhitespace | src/pages/Index.tsx:33 | `trim()` gives the empty string exactly when every character is white space. |
| DemoForm.ValidateForm | src/pages/Index.tsx:30-41 | The form is valid exactly when the name has a character that is not white space. `nameError` becomes "Name is required" when invalid and "" when valid. |
| DemoForm.HandleSubmit | src/pages/Index.tsx:44-60 | A submit adds exactly one toast at the end and keeps the earlier ones. It is titled "Success" with the success variant for a valid name, and "Error" with the error variant otherwise. |
| DemoForm.SubmitMarksNameField | src/pages/Index.tsx:103-104 | After a submit, the name field is invalid and shows "Name is required" exactly when the added toast is the error toast. |
| DemoForm.SubmittedToastDefaults | src/pages/Index.tsx:48-58 | The submitted toast takes the `Toast` defaults: a 5000 ms auto-close, a close button, top-right, and no action button. |
| DemoForm.BlankAndFilledNames | src/pages/Index.tsx:33 | A name of spaces is refused. A name with a letter is accepted and clears the error. |

## Left out

- Markup, portals, icons and the visual meaning of CSS classes are left out. Only the class argument list is modelled, as passed to the external class joiner, whose own merging is not part of this model.
- Real timers and the event loop become deadlines and fire events.
- `ToastProvider`'s 100 ms polling re-render (src/components/design-system/feedback/toast.tsx:278-307) is a rendering workaround, not store logic.
- `Date.now()` and `Math.random()` become parameters. So do the generated input and dropdown ids. Without an `id` prop, both components call the generator on every render (`id || …` short-circuits otherwise), so the text input and the dropdown each get a new id on each render.
- `localStorage`, `matchMedia` and `document.documentElement` are left out. Storage and the media query are plain inputs, and the provider is taken to be the only writer of storage.
- The dropdown's outside-click `mousedown` listener and `mergeRefs` are browser and ref plumbing.
- `src/theme/theme-config.ts` holds constant token tables. Only which table is chosen is modelled.
- `alert.tsx`, `theme-toggle.tsx`, `theme-example.tsx`, `PageLayout.tsx`, `NotFound.tsx` and the stories are presentational wrappers and fixtures.
- The page's email and category fields and the rest of its markup are not modelled. Only `validateForm`, `handleSubmit` and the name field's error props are.
- Exceptions thrown by caller callbacks are not modelled. The model assumes callbacks return normally.
- ToastLifecycle.Mount: the auto-close timer is armed once. The component re-arms it when its `duration` prop changes, but store records never change their `duration`, so the re-arm is not modelled.
- ToastLifecycle.Mount: `duration` is an integer. Fractional, infinite and non-numeric durations are not modelled. The 32-bit conversion of the timer delay is modelled (`ToastLifecycle.TimerDelay`).
- ToastLifecycle.Render: the variant's colour and icon, and the position classes' visual effect, are not stated.
- TextInput.Render: caller props spread after `aria-invalid` and `aria-describedby` can override them. The model takes no such overrides.
- Dropdown.Messages: the label's `aria-labelledby` and the option rows' highlight classes are not modelled.
- Theme.Mount: the branch where `window` is undefined (rendering outside a browser) is not modelled.
- Theme.MountIntended: the correction covers the mount only. It still saves the mode at mount, so, as in the written code, later preference changes are never applied (`Theme.RunIgnoresSystemChanges`). Which later behaviour the authors wanted (for example, saving only after an explicit choice) cannot be read from the code, so no corrected event step is modelled.
- Dropdown.Step: two over-approximations. Every `ValueChanged` event overwrites the selection, while React runs the `[value]` effect only when the prop really changes. And a pick is reported as an `onChange` call even when no `onChange` was passed. Both add behaviours, so the safety lemmas over runs still hold for the component.

## Findings

| source | as written | input that shows it | evidently intended | confidence | as-written member | corrected member |
|---|---|---|---|---|---|---|
| src/theme/ThemeProvider.tsx:47-69 | At mount, the persist effect runs first and saves the mode. The system-preference effect then reads storage, always finds a value, and never applies the preference to the mounted mode. | Nothing saved, no `defaultColorMode`, system prefers dark: the provider mounts in `light` (`Theme.FreshVisitWithDarkPreference`). | With nothing saved before mount, the system preference chooses the mode (`Theme.MountIntended`). After mount, the same event-level invariants hold (`Theme.RunKeepsSettled` applies to any settled provider, whichever mount produced it). | not executed | Theme.Mount | Theme.MountIntended |

=== FILE: demo_form.dfy ===
/**
 * The demo page's form: `validateForm` checks that the name is not blank
 * and sets the name field's error text; `handleSubmit` adds one toast
 * saying whether the form was accepted.
 */
module DemoForm {
  import opened Js
  import opened ToastStore
  import ToastLifecycle
  import TextInput
  import FormField

  const NameRequired := "Name is required"

  /** What `validateForm` returns, and the `nameError` it leaves behind. */
  datatype Validation = Validation(isValid: bool, nameError: string)

  /** A name is blank when every character is whitespace (the empty name included). */
  predicate Blank(name: string) {
    forall i :: 0 <= i < |name| ==> IsWhitespace(name[i])
  }

  /** `validateForm`: the name must not trim to the empty string. */
  function ValidateForm(name: string): (v: Validation)
    ensures v.isValid <==> !Blank(name)
    ensures !v.isValid ==> v.nameError == NameRequired
    ensures v.isValid ==> v.nameError == ""
  {
    TrimEmptyIffAllWhitespace(name);
    if Trim(name) == "" then Validation(false, NameRequired) else Validation(true, "")
  }

  /** The options `handleSubmit` passes to `add`. */
  function SubmitToast(isValid: bool): ToastOptions {
    if isValid then
      ToastOptions("Form submitted successfully!", Some("Success"), Some(Success), None, None, None, None, None, None)
    else
      ToastOptions("Please fix the errors in the form.", Some("Error"), Some(Error), None, None, None, None, None, None)
  }

  /**
   * `handleSubmit`: validate, then add exactly one toast, a success toast
   * for a valid form and an error toast otherwise. The toast id comes from
   * the id generator as a parameter.
   */
  function HandleSubmit(m: Manager, name: string, id: ToastId): (r: (Manager, string))
    ensures |r.0.toasts| == |m.toasts| + 1 && r.0.toasts[..|m.toasts|] == m.toasts
    ensures Last(r.0.toasts).id == id
    ensures !Blank(name) ==> Last(r.0.toasts).title == Some("Success") && Last(r.0.toasts).variant == Some(Success)
    ensures Blank(name) ==> Last(r.0.toasts).title == Some("Error") && Last(r.0.toasts).variant == Some(Error)
    ensures r.1 == ValidateForm(name).nameError
  {
    var v := ValidateForm(name);
    var (m', _) := Add(m, SubmitToast(v.isValid), id);
    (m', v.nameError)
  }

  /** The name field as the page renders it: `error={nameError}`, `hasError={!!nameError}`. */
  function NameField(nameError: string): TextInput.Props {
    TextInput.Props(None, Some("Name"), None, Some(nameError), Some(nameError != ""),
                    None, true, false, Some(true))
  }

  /**
   * After a submit the name field is marked invalid, and shows "Name is
   * required", exactly when the added toast is the error toast; only the
   * name decides which.
   */
  lemma SubmitMarksNameField(m: Manager, name: string, id: ToastId, generatedId: string)
    ensures var (m', nameError) := HandleSubmit(m, name, id);
            var v := TextInput.Render(NameField(nameError), generatedId);
            && (v.ariaInvalid <==> Last(m'.toasts).variant == Some(Error))
            && (v.messages.error.Some? <==> Last(m'.toasts).variant == Some(Error))
            && (v.messages.error.Some? ==> v.messages.error.value.text == NameRequired)
  {
    var (m', nameError) := HandleSubmit(m, name, id);
    var v := TextInput.Render(NameField(nameError), generatedId);
    assert NameRequired != "";
    assert v.messages == FormField.ResolveMessages(v.inputId, None, Some(nameError));
  }

  /**
   * The submitted toast takes every `Toast` default: a 5000 ms auto-close,
   * a close button, the top-right corner and no action button.
   */
  lemma SubmittedToastDefaults(m: Manager, name: string, id: ToastId)
    ensures var st := ToastLifecycle.SettingsOf(Last(HandleSubmit(m, name, id).0.toasts));
            && st.duration == ToastLifecycle.DefaultDurationMs
            && st.closable && st.position == TopRight && !st.hasAction
  {
    var v := ValidateForm(name);
    var (m', _) := Add(m, SubmitToast(v.isValid), id);
    assert OptionsOf(Last(m'.toasts)) == SubmitToast(v.isValid);
  }

  /** A name of spaces is refused; a name with a letter in it is accepted and clears the error. */
  lemma BlankAndFilledNames()
    ensures !ValidateForm("   ").isValid
    ensures ValidateForm(" a ") == Validation(true, "")
  {
    assert !IsWhitespace(" a "[1]);
  }
}

=== FILE: dropdown.dfy ===
/**
 * `Dropdown`: a button that opens a list of options. Its state is whether
 * the list is open and the selected value; keyboard input, clicks on the
 * button, clicks on an option and changes of the `value` prop drive it.
 */
module Dropdown {
  import opened Js
  import opened FormField

  datatype DropdownOption = DropdownOption(value: string, optionLabel: string, disabled: Option<bool>)

  datatype Props = Props(
    labelText: Option<string>,
    options: seq<DropdownOption>,
    value: Option<string>,
    placeholder: Option<string>,
    helperText: Option<string>,
    error: Option<string>,
    hasError: Option<bool>,
    size: Option<Size>,
    disabled: Option<bool>,
    id: Option<string>)

  datatype State = State(isOpen: bool, selected: Option<string>)

  const DefaultPlaceholder := "Select an option..."

  /** The first render: closed, with the `value` prop as the selection. */
  function Initial(p: Props): (s: State)
    ensures !s.isOpen && s.selected == p.value
  {
    State(false, p.value)
  }

  /** The keys that open a closed list. */
  predicate OpensList(key: string) {
    key == "Enter" || key == " " || key == "ArrowDown"
  }

  /** The new state, and whether the key's default action was prevented. */
  datatype KeyOutcome = KeyOutcome(state: State, preventDefault: bool)

  /** `handleKeyDown`. */
  function HandleKeyDown(s: State, key: string): (r: KeyOutcome)
    ensures r.state.selected == s.selected
    ensures key == "Escape" ==> !r.state.isOpen && !r.preventDefault
    ensures OpensList(key) && !s.isOpen ==> r.state.isOpen && r.preventDefault
    ensures OpensList(key) && s.isOpen ==> r.state == s && !r.preventDefault
    ensures key != "Escape" && !OpensList(key) ==> r.state == s && !r.preventDefault
  {
    if key == "Escape" then KeyOutcome(s.(isOpen := false), false)
    else if key == "Enter" || key == " " then
      if !s.isOpen then KeyOutcome(s.(isOpen := true), true) else KeyOutcome(s, false)
    else if key == "ArrowDown" then
      if !s.isOpen then KeyOutcome(s.(isOpen := true), true) else KeyOutcome(s, false)
    else KeyOutcome(s, false)
  }

  /** The new state and the value passed to `onChange`, if it was called. */
  datatype SelectOutcome = SelectOutcome(state: State, changed: Option<string>)

  /** `handleSelect`: a disabled option is ignored; any other is selected, reported and closes the list. */
  function HandleSelect(s: State, o: DropdownOption): (r: SelectOutcome)
    ensures IsSet(o.disabled) ==> r.state == s && r.changed.None?
    ensures !IsSet(o.disabled) ==> r.state == State(false, Some(o.value)) && r.changed == Some(o.value)
  {
    if IsSet(o.disabled) then SelectOutcome(s, None)
    else SelectOutcome(State(false, Some(o.value)), Some(o.value))
  }

  /** The trigger's `onClick`: toggle when enabled. */
  function TriggerClick(s: State, disabled: bool): (s': State)
    ensures s'.selected == s.selected
    ensures disabled ==> s' == s
    ensures !disabled ==> s'.isOpen == !s.isOpen
  {
    if disabled then s else s.(isOpen := !s.isOpen)
  }

  /** The effect on `[value]`: a new `value` prop overwrites the selection. */
  function SyncValue(s: State, value: Option<string>): (s': State)
    ensures s'.selected == value && s'.isOpen == s.isOpen
  {
    s.(selected := value)
  }

  /** `options.find(option => option.value === selectedValue)`. */
  function SelectedOption(options: seq<DropdownOption>, selected: Option<string>): (r: Option<DropdownOption>)
    ensures r.Some? <==> exists i :: 0 <= i < |options| && selected == Some(options[i].value)
    ensures r.Some? ==>
              (exists i :: 0 <= i < |options| && options[i] == r.value
                 && selected == Some(r.value.value)
                 && forall j :: 0 <= j < i ==> selected != Some(options[j].value))
  {
    if |options| == 0 then None
    else if selected == Some(options[0].value) then Some(options[0])
    else
      var r := SelectedOption(options[1..], selected);
      assert forall i :: 0 < i < |options| ==> options[i] == options[1..][i - 1];
      if r.Some? then
        assert exists i :: 0 < i < |options| && options[i] == r.value
                           && forall j :: 0 <= j < i ==> selected != Some(options[j].value) by {
          var k :| 0 <= k < |options[1..]| && options[1..][k] == r.value
                   && forall j :: 0 <= j < k ==> selected != Some(options[1..][j].value);
          assert options[k + 1] == r.value;
          forall j | 0 <= j < k + 1
            ensures selected != Some(options[j].value)
          {
            if j > 0 {
              assert options[j] == options[1..][j - 1];
            }
          }
        }
        r
      else r
  }

  /** The text on the button: the selected option's label, otherwise the placeholder. */
  function DisplayText(p: Props, s: State): (r: string)
    ensures (forall i :: 0 <= i < |p.options| ==> s.selected != Some(p.options[i].value))
              ==> r == p.placeholder.GetOr(DefaultPlaceholder)
    ensures (exists i :: 0 <= i < |p.options| && s.selected == Some(p.options[i].value))
              ==> exists i :: 0 <= i < |p.options| && s.selected == Some(p.options[i].value)
                             && r == p.options[i].optionLabel
  {
    match SelectedOption(p.options, s.selected)
    case Some(o) => o.optionLabel
    case None => p.placeholder.GetOr(DefaultPlaceholder)
  }

  /** `!selectedValue`: the button text is muted when nothing (or the empty string) is selected. */
  predicate TextMuted(s: State) {
    !Truthy(s.selected)
  }

  /**
   * The button shows the label of the first option whose value is the
   * selection; with no such option it shows the placeholder, which defaults
   * to "Select an option...".
   */
  lemma DisplayTextIsFirstMatchOrPlaceholder(p: Props, s: State)
    ensures forall i :: 0 <= i < |p.options| && s.selected == Some(p.options[i].value)
              && (forall j :: 0 <= j < i ==> s.selected != Some(p.options[j].value))
              ==> DisplayText(p, s) == p.options[i].optionLabel
    ensures (forall i :: 0 <= i < |p.options| ==> s.selected != Some(p.options[i].value))
              ==> DisplayText(p, s) == p.placeholder.GetOr(DefaultPlaceholder)
    ensures ((forall i :: 0 <= i < |p.options| ==> s.selected != Some(p.options[i].value)) && p.placeholder.None?)
              ==> DisplayText(p, s) == "Select an option..."
  {
    var r := SelectedOption(p.options, s.selected);
    forall i | 0 <= i < |p.options| && s.selected == Some(p.options[i].value)
                && (forall j :: 0 <= j < i ==> s.selected != Some(p.options[j].value))
      ensures DisplayText(p, s) == p.options[i].optionLabel
    {
      var k :| 0 <= k < |p.options| && p.options[k] == r.value && s.selected == Some(r.value.value)
               && forall j :: 0 <= j < k ==> s.selected != Some(p.options[j].value);
    }
  }

  /**
   * With nothing selected the button shows the placeholder, muted; a
   * non-empty selection is never muted. An option whose value is the empty
   * string is shown with its label, yet muted like the placeholder.
   */
  lemma MutedText(p: Props, s: State)
    ensures s.selected.None? ==> TextMuted(s) && DisplayText(p, s) == p.placeholder.GetOr(DefaultPlaceholder)
    ensures Truthy(s.selected) ==> !TextMuted(s)
    ensures s.selected == Some("") && |p.options| > 0 && p.options[0].value == "" ==>
              TextMuted(s) && DisplayText(p, s) == p.options[0].optionLabel
  {
    DisplayTextIsFirstMatchOrPlaceholder(p, s);
  }

  /** The messages below the button and its `aria-describedby`, as for the text input. */
  function Messages(p: Props, generatedId: string): (m: FormField.Messages)
    ensures m.error.Some? <==> Truthy(p.error)
    ensures m.helper.Some? <==> Truthy(p.helperText) && !Truthy(p.error)
    ensures !(m.helper.Some? && m.error.Some?)
    ensures Truthy(p.error) ==> m.describedBy == Some(ErrorId(FieldId(p.id, generatedId)))
    ensures !Truthy(p.error) && Truthy(p.helperText) ==> m.describedBy == Some(DescriptionId(FieldId(p.id, generatedId)))
    ensures !Truthy(p.error) && !Truthy(p.helperText) ==> m.describedBy.None?
  {
    ResolveMessages(FieldId(p.id, generatedId), p.helperText, p.error)
  }

  // ----- Event sequences -----

  /**
   * What reaches the component. `Pick(i)` is a click on the i-th option,
   * possible only while the list is rendered; key events reach only an
   * enabled button.
   */
  datatype Event =
    | Key(key: string)
    | TriggerClicked
    | Pick(index: nat)
    | ValueChanged(value: Option<string>)

  /**
   * One event: the new state and the values `handleSelect` hands to
   * `onChange`. Two simplifications, both over-approximations: the `[value]`
   * effect is taken to run on every `ValueChanged`, even one that repeats
   * the current prop, where React would skip it; and a pick is reported even
   * when no `onChange` was passed, where `onChange?.(...)` calls nothing.
   * A `Key` event keeps only the new state, not `preventDefault`: the
   * browser follows an Enter or Space that is not prevented on the trigger
   * button with a click, and a run records that click as a separate
   * `TriggerClicked` event (see `UnpreventedEnterThenClickCloses`).
   */
  function Step(p: Props, s: State, e: Event): (r: (State, seq<string>))
    ensures |r.1| <= 1
    ensures e.Key? || e.TriggerClicked? ==> r.0.selected == s.selected && r.1 == []
    ensures IsSet(p.disabled) && (e.Key? || e.TriggerClicked?) ==> r.0 == s
    ensures e.Key? && !IsSet(p.disabled) ==> r.0 == HandleKeyDown(s, e.key).state
    ensures e.TriggerClicked? ==> r.0 == TriggerClick(s, IsSet(p.disabled))
    ensures e.ValueChanged? ==> r.0 == s.(selected := e.value) && r.1 == []
    ensures r.1 != [] ==> e.Pick? && s.isOpen && e.index < |p.options|
                          && !IsSet(p.options[e.index].disabled)
                          && r.1 == [p.options[e.index].value] && r.0 == State(false, Some(r.1[0]))
    ensures r.0.selected != s.selected ==> e.ValueChanged? || (r.1 != [] && r.0.selected == Some(r.1[0]))
  {
    match e
    case Key(k) =>
      if IsSet(p.disabled) then (s, []) else (HandleKeyDown(s, k).state, [])
    case TriggerClicked =>
      (TriggerClick(s, IsSet(p.disabled)), [])
    case Pick(i) =>
      if s.isOpen && i < |p.options| then
        var r := HandleSelect(s, p.options[i]);
        (r.state, if r.changed.Some? then [r.changed.value] else [])
      else (s, [])
    case ValueChanged(v) =>
      (SyncValue(s, v), [])
  }

  function Run(p: Props, s: State, events: seq<Event>): (State, seq<string>)
    decreases |events|
  {
    if |events| == 0 then (s, [])
    else
      var (next, now) := Step(p, s, events[0]);
      var (last, later) := Run(p, next, events[1..]);
      (last, now + later)
  }

  predicate EnabledValue(p: Props, v: string) {
    exists i :: 0 <= i < |p.options| && p.options[i].value == v && !IsSet(p.options[i].disabled)
  }

  /** `onChange` is only ever called with the value of an enabled option. */
  lemma {:induction false} ChangesAreEnabledOptions(p: Props, s: State, events: seq<Event>)
    ensures forall k :: 0 <= k < |Run(p, s, events).1| ==> EnabledValue(p, Run(p, s, events).1[k])
    decreases |events|
  {
    if |events| > 0 {
      var (next, now) := Step(p, s, events[0]);
      ChangesAreEnabledOptions(p, next, events[1..]);
      var later := Run(p, next, events[1..]).1;
      forall k | 0 <= k < |now + later|
        ensures EnabledValue(p, (now + later)[k])
      {
        if k < |now| {
          var i := events[0].index;
          assert (now + later)[k] == p.options[i].value;
        } else {
          assert (now + later)[k] == later[k - |now|];
        }
      }
    }
  }

  /**
   * The selection only ever holds the value it started with, a value the
   * `value` prop was changed to, or the value of an enabled option.
   */
  lemma {:induction false} SelectionProvenance(p: Props, s: State, events: seq<Event>)
    ensures var sel := Run(p, s, events).0.selected;
            || sel == s.selected
            || (exists k :: 0 <= k < |events| && events[k] == ValueChanged(sel))
            || (sel.Some? && EnabledValue(p, sel.value))
    decreases |events|
  {
    if |events| > 0 {
      var next := Step(p, s, events[0]).0;
      SelectionProvenance(p, next, events[1..]);
      var sel := Run(p, s, events).0.selected;
      if exists k :: 0 <= k < |events[1..]| && events[1..][k] == ValueChanged(sel) {
        var k :| 0 <= k < |events[1..]| && events[1..][k] == ValueChanged(sel);
        assert events[k + 1] == ValueChanged(sel);
      } else if sel == next.selected && sel != s.selected {
        match events[0]
        case ValueChanged(v) =>
          assert events[0] == ValueChanged(sel);
        case Pick(i) =>
          assert p.options[i].value == sel.value;
        case Key(_) =>
        case TriggerClicked =>
      }
    }
  }

  /** Escape closes the list whatever its state; keys never touch the selection. */
  lemma EscapeCloses(p: Props, s: State)
    requires !IsSet(p.disabled)
    ensures !Step(p, s, Key("Escape")).0.isOpen
    ensures Step(p, s, Key("Escape")).0.selected == s.selected
  {
  }

  /** Picking an enabled option from the open list selects it, closes the list and reports it once. */
  lemma PickEnabledOption(p: Props, s: State, i: nat)
    requires s.isOpen && i < |p.options| && !IsSet(p.options[i].disabled)
    ensures Step(p, s, Pick(i)) == (State(false, Some(p.options[i].value)), [p.options[i].value])
  {
  }

  /** Picking a disabled option changes nothing and reports nothing. */
  lemma PickDisabledOption(p: Props, s: State, i: nat)
    requires i < |p.options| && IsSet(p.options[i].disabled)
    ensures Step(p, s, Pick(i)) == (s, [])
  {
  }

  /** Two clicks on an enabled trigger restore the open state; a disabled trigger ignores clicks. */
  lemma TriggerClickTwice(p: Props, s: State)
    ensures Run(p, s, [TriggerClicked, TriggerClicked]).0 == s
    ensures IsSet(p.disabled) ==> Step(p, s, TriggerClicked).0 == s
  {
  }

  /**
   * On an open list, Enter and Space are not prevented, so the browser's
   * follow-up click on the trigger reaches the component and closes the
   * list again; on a closed list they are prevented and only open it.
   */
  lemma UnpreventedEnterThenClickCloses(p: Props, s: State, k: string)
    requires !IsSet(p.disabled) && (k == "Enter" || k == " ")
    ensures s.isOpen ==> !HandleKeyDown(s, k).preventDefault
    ensures s.isOpen ==> Run(p, s, [Key(k), TriggerClicked]).0 == s.(isOpen := false)
    ensures !s.isOpen ==> HandleKeyDown(s, k).preventDefault && Step(p, s, Key(k)).0 == s.(isOpen := true)
  {
    if s.isOpen {
      var events := [Key(k), TriggerClicked];
      assert Step(p, s, Key(k)).0 == s;
      assert events[1..] == [TriggerClicked] && Run(p, s, [TriggerClicked]).0 == s.(isOpen := false);
    }
  }
}

=== FILE: form_field.dfy ===
/**
 * What the text input and the dropdown share: the field id, the size
 * table, and the choice between helper text and error text together with
 * the `aria-describedby` that points at whichever is shown. The two
 * components write this logic out identically; it is defined once here.
 */
module FormField {
  import opened Js

  datatype Size = Sm | Md | Lg

  /** The `sizeStyles` table, with `md` as the default size. */
  function SizeClass(size: Option<Size>): string {
    match size.GetOr(Md)
    case Sm => "h-8 px-3 py-1 text-sm"
    case Md => "h-10 px-4 py-2"
    case Lg => "h-12 px-5 py-2.5 text-lg"
  }

  /** Each size has its own classes, and leaving the size out is the same as asking for `md`. */
  lemma SizeClassDistinctAndDefault(a: Size, b: Size)
    ensures SizeClass(Some(a)) == SizeClass(Some(b)) ==> a == b
    ensures SizeClass(None) == SizeClass(Some(Md))
  {
  }

  /**
   * `id || generated`: the caller's id when it is a non-empty string,
   * otherwise the id the random generator produced.
   */
  function FieldId(id: Option<string>, generated: string): (r: string)
    ensures Truthy(id) ==> r == id.value
    ensures !Truthy(id) ==> r == generated
  {
    if Truthy(id) then id.value else generated
  }

  function DescriptionId(fieldId: string): string {
    fieldId + "-description"
  }

  function ErrorId(fieldId: string): string {
    fieldId + "-error"
  }

  /** A message rendered below the field: its element id, its text, and whether it is muted. */
  datatype Message = Message(elementId: string, text: string, muted: bool)

  datatype Messages = Messages(helper: Option<Message>, error: Option<Message>, describedBy: Option<string>)

  /**
   * The messages below a field and the field's `aria-describedby`. The
   * rendering conditions (`helperText && !error`, `error`) and the
   * describedby ternary are written separately in the components; the
   * contract states that they agree: at most one message is shown, and
   * describedby names exactly the one that is.
   */
  function ResolveMessages(fieldId: string, helperText: Option<string>, error: Option<string>): (m: Messages)
    ensures m.error.Some? <==> Truthy(error)
    ensures m.helper.Some? <==> Truthy(helperText) && !Truthy(error)
    ensures !(m.helper.Some? && m.error.Some?)
    ensures m.error.Some? ==> m.error.value == Message(ErrorId(fieldId), error.value, false)
    ensures m.helper.Some? ==> m.helper.value == Message(DescriptionId(fieldId), helperText.value, true)
    ensures m.describedBy.Some? <==> m.helper.Some? || m.error.Some?
    ensures m.error.Some? ==> m.describedBy == Some(m.error.value.elementId)
    ensures m.helper.Some? ==> m.describedBy == Some(m.helper.value.elementId)
  {
    var helper := if Truthy(helperText) && !Truthy(error)
                  then Some(Message(DescriptionId(fieldId), helperText.value, true)) else None;
    var err := if Truthy(error) then Some(Message(ErrorId(fieldId), error.value, false)) else None;
    var describedBy := if Truthy(error) then Some(ErrorId(fieldId))
                       else if Truthy(helperText) then Some(DescriptionId(fieldId))
                       else None;
    Messages(helper, err, describedBy)
  }
}

=== FILE: js.dfy ===
/**
 * The few pieces of JavaScript semantics the components lean on:
 * optional values (`undefined`), truthiness of optional strings and
 * booleans, `startsWith` / `endsWith`, and `String.prototype.trim`.
 */
module Js {

  /** An optional prop or argument: `None` is JavaScript's `undefined`. */
  datatype Option<+T> = None | Some(value: T) {
    function GetOr(default: T): T {
      match this
      case Some(v) => v
      case None => default
    }
  }

  /** Truthiness of an optional string: `undefined` and `""` are falsy. */
  predicate Truthy(o: Option<string>) {
    o.Some? && o.value != ""
  }

  /** Truthiness of an optional boolean: only `true` is truthy. */
  predicate IsSet(o: Option<bool>) {
    o == Some(true)
  }

  predicate StartsWith(s: string, prefix: string) {
    |prefix| <= |s| && s[..|prefix|] == prefix
  }

  predicate EndsWith(s: string, suffix: string) {
    |suffix| <= |s| && s[|s| - |suffix|..] == suffix
  }

  /**
   * The code points `trim` strips: the WhiteSpace and LineTerminator
   * productions of ECMA-262 (section 12.2 and 12.3), the Zs category
   * written out.
   */
  predicate IsWhitespace(c: char) {
    || c == '\t' || c == '\U{000B}' || c == '\U{000C}' || c == ' '
    || c == '\U{00A0}' || c == '\U{FEFF}' || c == '\U{1680}'
    || ('\U{2000}' <= c <= '\U{200A}')
    || c == '\U{202F}' || c == '\U{205F}' || c == '\U{3000}'
    || c == '\n' || c == '\r' || c == '\U{2028}' || c == '\U{2029}'
  }

  /** The longest suffix of `s` that does not start with whitespace. */
  function TrimStart(s: string): (r: string)
    ensures |r| <= |s| && r == s[|s| - |r|..]
    ensures forall i :: 0 <= i < |s| - |r| ==> IsWhitespace(s[i])
    ensures |r| > 0 ==> !IsWhitespace(r[0])
    decreases |s|
  {
    if |s| > 0 && IsWhitespace(s[0]) then TrimStart(s[1..]) else s
  }

  /** The longest prefix of `s` that does not end with whitespace. */
  function TrimEnd(s: string): (r: string)
    ensures |r| <= |s| && r == s[..|r|]
    ensures forall i :: |r| <= i < |s| ==> IsWhitespace(s[i])
    ensures |r| > 0 ==> !IsWhitespace(r[|r| - 1])
    decreases |s|
  {
    if |s| > 0 && IsWhitespace(s[|s| - 1]) then TrimEnd(s[..|s| - 1]) else s
  }

  /** `String.prototype.trim`. */
  function Trim(s: string): string {
    TrimEnd(TrimStart(s))
  }

  /** `s.trim()` is empty exactly when every character of `s` is whitespace. */
  lemma TrimEmptyIffAllWhitespace(s: string)
    ensures Trim(s) == "" <==> forall i :: 0 <= i < |s| ==> IsWhitespace(s[i])
  {
    var t := TrimStart(s);
    if Trim(s) != "" {
      var r := Trim(s);
      assert r[0] == t[0];
      assert t[0] == s[|s| - |t|];
    }
  }
}

/**
 * The argument list handed to the class-name joiner `cn`. The joiner itself
 * lives outside the repository; the model keeps the exact list of arguments,
 * where a falsy conditional (`cond && "x"`, an absent `className`) is `Off`.
 */
module ClassNames {
  import opened Js

  datatype ClassArg = Cls(name: string) | Off

  /** `cond && name`. */
  function When(cond: bool, name: string): ClassArg {
    if cond then Cls(name) else Off
  }

  /** A `className` prop passed through: `undefined` contributes nothing. */
  function Passed(className: Option<string>): ClassArg {
    match className
    case Some(c) => Cls(c)
    case None => Off
  }

  /** The class strings that survive the falsy filter of `cn`. */
  function Active(args: seq<ClassArg>): (r: seq<string>)
    ensures forall c :: c in r <==> c != "" && Cls(c) in args
  {
    if |args| == 0 then []
    else
      var rest := Active(args[1..]);
      assert forall c :: Cls(c) in args <==> Cls(c) == args[0] || Cls(c) in args[1..];
      match args[0]
      case Cls(c) => if c != "" then [c] + rest else rest
      case Off => rest
  }
}

=== FILE: text_input.dfy ===
/**
 * `TextInput`: a labelled input with optional icons, helper text and
 * error text. Everything it decides is a pure function of its props and
 * of the id the random generator produced when the caller gave none.
 */
module TextInput {
  import opened Js
  import opened ClassNames
  import opened FormField

  datatype Props = Props(
    id: Option<string>,
    labelText: Option<string>,
    helperText: Option<string>,
    error: Option<string>,
    hasError: Option<bool>,
    size: Option<Size>,
    leadingIcon: bool,
    trailingIcon: bool,
    fullWidth: Option<bool>)

  /** The decisions one render makes. */
  datatype View = View(
    inputId: string,
    labelShown: bool,
    inputClasses: seq<ClassArg>,
    ariaInvalid: bool,
    messages: Messages)

  const LeadingPadding := "pl-10"
  const TrailingPadding := "pr-10"

  /** The fixed classes every input gets, before the size and the optional ones. */
  const LayoutClasses := "flex w-full rounded-md border border-input bg-background ring-offset-background"
  const FileClasses := "file:border-0 file:bg-transparent file:text-sm file:font-medium"
  const FocusClasses := "placeholder:text-muted-foreground focus-visible:outline-none focus-visible:ring-2"
  const StateClasses := "focus-visible:ring-ring focus-visible:ring-offset-2 disabled:cursor-not-allowed disabled:opacity-50"
  const ErrorBorder := "border-destructive focus-visible:ring-destructive"

  /** The class list handed to the joiner for the `<input>`. */
  function InputClasses(p: Props): seq<ClassArg> {
    [ Cls(LayoutClasses),
      Cls(FileClasses),
      Cls(FocusClasses),
      Cls(StateClasses),
      Cls(SizeClass(p.size)),
      When(p.leadingIcon, LeadingPadding),
      When(p.trailingIcon, TrailingPadding),
      When(IsSet(p.hasError), ErrorBorder),
      When(IsSet(p.fullWidth), "w-full") ]
  }

  function Render(p: Props, generatedId: string): (v: View)
    ensures v.inputId == FieldId(p.id, generatedId)
    ensures v.labelShown <==> Truthy(p.labelText)
    ensures v.ariaInvalid <==> p.hasError == Some(true)
    ensures v.messages == ResolveMessages(v.inputId, p.helperText, p.error)
  {
    var inputId := FieldId(p.id, generatedId);
    View(inputId, Truthy(p.labelText), InputClasses(p), IsSet(p.hasError),
         ResolveMessages(inputId, p.helperText, p.error))
  }

  /**
   * `aria-describedby` is `<id>-error` when there is an error, otherwise
   * `<id>-description` when there is helper text, otherwise absent; and
   * helper and error text are never shown together.
   */
  lemma DescribedByPrecedence(p: Props, generatedId: string)
    ensures var v := Render(p, generatedId);
            && (Truthy(p.error) ==> v.messages.describedBy == Some(ErrorId(v.inputId)))
            && (!Truthy(p.error) && Truthy(p.helperText) ==> v.messages.describedBy == Some(DescriptionId(v.inputId)))
            && (!Truthy(p.error) && !Truthy(p.helperText) ==> v.messages.describedBy == None)
            && !(v.messages.helper.Some? && v.messages.error.Some?)
  {
    var v := Render(p, generatedId);
    var m := ResolveMessages(v.inputId, p.helperText, p.error);
    assert v.messages == m;
  }

  /** A leading icon adds left padding and a trailing icon right padding, independently of each other. */
  lemma IconPadding(p: Props)
    ensures LeadingPadding in Active(InputClasses(p)) <==> p.leadingIcon
    ensures TrailingPadding in Active(InputClasses(p)) <==> p.trailingIcon
  {
    var args := InputClasses(p);
    assert |SizeClass(p.size)| > 5;
    forall i | 0 <= i < |args| && i != 5
      ensures args[i] != Cls(LeadingPadding)
    {
      if args[i].Cls? {
        assert |args[i].name| != 5 || args[i].name == TrailingPadding;
      }
    }
    forall i | 0 <= i < |args| && i != 6
      ensures args[i] != Cls(TrailingPadding)
    {
      if args[i].Cls? {
        assert |args[i].name| != 5 || args[i].name == LeadingPadding;
      }
    }
  }

  /** The size picks its row of the table, `md` when absent. */
  lemma SizeChoosesClass(p: Props)
    ensures SizeClass(p.size) in Active(InputClasses(p))
    ensures p.size.None? ==> "h-10 px-4 py-2" in Active(InputClasses(p))
  {
  }

  /** The error border is passed exactly when `hasError` is set; no other slot holds it. */
  lemma ErrorBorderSlot(p: Props)
    ensures Cls(ErrorBorder) in InputClasses(p) <==> IsSet(p.hasError)
    ensures ErrorBorder in Active(InputClasses(p)) <==> IsSet(p.hasError)
  {
    var args := InputClasses(p);
    assert |LayoutClasses| == 79 && |FileClasses| == 63 && |FocusClasses| == 81 && |StateClasses| == 99;
    assert |SizeClass(p.size)| < 49 && |ErrorBorder| == 49;
    assert args[7] == When(IsSet(p.hasError), ErrorBorder);
  }

  /**
   * `aria-invalid` follows `hasError` (default false) alone: an error message
   * without `hasError` leaves the input valid and without the error border.
   */
  lemma InvalidIndependentOfErrorText(p: Props, generatedId: string)
    requires Truthy(p.error) && p.hasError.None?
    ensures !Render(p, generatedId).ariaInvalid
    ensures Render(p, generatedId).messages.error.Some?
    ensures ErrorBorder !in Active(InputClasses(p))
  {
    ErrorBorderSlot(p);
  }
}

=== FILE: theme_provider.dfy ===
/**
 * `ThemeProvider`: the colour mode, the theme it selects, and the three
 * places the mode is mirrored (the saved `color-mode` value, the
 * `data-theme` attribute and the `dark` class). Storage and the media
 * query are plain inputs; the provider is the only writer of storage.
 */
module Theme {
  import opened Js

  /** The two values the mode's type names. */
  datatype ColorMode = Light | Dark

  function ModeName(c: ColorMode): string {
    match c
    case Light => "light"
    case Dark => "dark"
  }

  /** The two token tables; their contents are constants and are not modelled. */
  datatype ThemeTokens = LightTheme | DarkTheme

  /**
   * The mode the provider holds. The saved value is cast to the mode's
   * type without a check, so the state is any string.
   */
  type Mode = string

  /** The theme chosen for a mode: the light tokens for "light", the dark tokens for anything else. */
  function ThemeFor(mode: Mode): (r: ThemeTokens)
    ensures r == LightTheme <==> mode == ModeName(Light)
  {
    if mode == "light" then LightTheme else DarkTheme
  }

  /** The mode the state initialiser picks: a truthy saved value, else the default, else "light". */
  function InitialMode(saved: Option<string>, defaultMode: Option<ColorMode>): (m: Mode)
    ensures m != ""
    ensures Truthy(saved) ==> m == saved.value
    ensures !Truthy(saved) ==> m == ModeName(defaultMode.GetOr(Light))
  {
    if Truthy(saved) then saved.value else ModeName(defaultMode.GetOr(Light))
  }

  /** `toggleColorMode`: "light" becomes "dark", anything else becomes "light". */
  function Toggle(mode: Mode): (r: Mode)
    ensures r == "light" || r == "dark"
    ensures r == "dark" <==> mode == "light"
  {
    if mode == "light" then "dark" else "light"
  }

  /** Toggling twice gives the mode back exactly when the mode is one of the two the type names. */
  lemma ToggleInvolution(mode: Mode)
    ensures Toggle(Toggle(mode)) == mode <==> mode == "light" || mode == "dark"
  {
  }

  /** An unchecked saved value such as "blue" is not restored by two toggles. */
  lemma ToggleTwiceNormalises()
    ensures Toggle("blue") == "light" && Toggle(Toggle("blue")) == "dark"
  {
  }

  /** The parts of the browser the provider writes. */
  datatype Dom = Dom(stored: Option<string>, dataTheme: Option<string>, darkClass: bool)

  /** The storage, attribute and class all mirror the mode. */
  ghost predicate Consistent(mode: Mode, dom: Dom) {
    dom.stored == Some(mode) && dom.dataTheme == Some(mode) && (dom.darkClass <==> mode == "dark")
  }

  /** The persist effect: save the mode, mirror it in `data-theme`, and set the `dark` class exactly for "dark". */
  function Persist(mode: Mode, dom: Dom): (d: Dom)
    ensures Consistent(mode, d)
  {
    Dom(Some(mode), Some(mode), mode == "dark")
  }

  /** The mode a media-query result asks for. */
  function PreferredMode(prefersDark: bool): Mode {
    if prefersDark then "dark" else "light"
  }

  datatype Provider = Provider(mode: Mode, dom: Dom)

  /** The state a provider is in between events: mirrored, with a non-empty saved value. */
  ghost predicate Settled(p: Provider) {
    Consistent(p.mode, p.dom) && p.mode != ""
  }

  /**
   * `setColorMode(m)`: React skips the re-render when the mode is unchanged,
   * so the persist effect (keyed on the mode) runs only on a change.
   */
  function Change(p: Provider, m: Mode): (r: Provider)
    ensures r.mode == m
    ensures m == p.mode ==> r == p
    ensures m != p.mode ==> Consistent(m, r.dom)
  {
    if m == p.mode then p else Provider(m, Persist(m, p.dom))
  }

  /**
   * Mount, as written: the initialiser reads storage; then the effects run
   * in declaration order, so the persist effect saves the mode before the
   * system-preference effect asks whether anything is saved.
   */
  function Mount(dom: Dom, defaultMode: Option<ColorMode>, prefersDark: bool): (p: Provider)
    ensures Settled(p)
    ensures p.mode == InitialMode(dom.stored, defaultMode)
  {
    var mode := InitialMode(dom.stored, defaultMode);
    var afterPersist := Provider(mode, Persist(mode, dom));
    if !Truthy(afterPersist.dom.stored) then Change(afterPersist, PreferredMode(prefersDark))
    else afterPersist
  }

  /**
   * Mount as the system-preference effect evidently intends it: the
   * preference decides the mode when nothing was saved before mount.
   */
  function MountIntended(dom: Dom, defaultMode: Option<ColorMode>, prefersDark: bool): (p: Provider)
    ensures Settled(p)
    ensures Truthy(dom.stored) ==> p.mode == dom.stored.value
    ensures !Truthy(dom.stored) ==> p.mode == PreferredMode(prefersDark)
  {
    var mode := if Truthy(dom.stored) then dom.stored.value else PreferredMode(prefersDark);
    Provider(mode, Persist(mode, dom))
  }

  /** As written, the media query has no influence on the mounted state. */
  lemma MountIgnoresPreference(dom: Dom, defaultMode: Option<ColorMode>)
    ensures Mount(dom, defaultMode, true) == Mount(dom, defaultMode, false)
  {
  }

  /**
   * The discrepancy on one input: nothing saved, no default, a dark system
   * preference. As written the provider mounts light; as intended, dark.
   */
  lemma FreshVisitWithDarkPreference()
    ensures Mount(Dom(None, None, false), None, true).mode == "light"
    ensures MountIntended(Dom(None, None, false), None, true).mode == "dark"
  {
  }

  /** With something saved, the intended mount agrees with the written one. */
  lemma MountsAgreeWhenSaved(dom: Dom, defaultMode: Option<ColorMode>, prefersDark: bool)
    requires Truthy(dom.stored)
    ensures MountIntended(dom, defaultMode, prefersDark) == Mount(dom, defaultMode, prefersDark)
  {
  }

  datatype Event = ToggleMode | SetMode(mode: ColorMode) | SystemChange(matches: bool)

  /** One event: the toggle, an explicit choice, or a change of the system preference. */
  function Step(p: Provider, e: Event): (r: Provider)
    ensures r.mode == p.mode ==> r == p
    ensures r.mode != p.mode ==> Consistent(r.mode, r.dom)
    ensures e.ToggleMode? ==> r.mode == Toggle(p.mode)
    ensures e.SetMode? ==> r.mode == ModeName(e.mode)
    ensures e.SystemChange? && Truthy(p.dom.stored) ==> r == p
  {
    match e
    case ToggleMode => Change(p, Toggle(p.mode))
    case SetMode(c) => Change(p, ModeName(c))
    case SystemChange(matches) =>
      if !Truthy(p.dom.stored) then Change(p, PreferredMode(matches)) else p
  }

  function Run(p: Provider, events: seq<Event>): Provider
    decreases |events|
  {
    if |events| == 0 then p else Run(Step(p, events[0]), events[1..])
  }

  /** A system-preference change is applied only when nothing is saved, and then it sets the preferred mode. */
  lemma SystemChangeOnlyWithoutSaved(p: Provider, matches: bool)
    ensures Step(p, SystemChange(matches)) != p ==> !Truthy(p.dom.stored)
    ensures !Truthy(p.dom.stored) ==> Step(p, SystemChange(matches)).mode == PreferredMode(matches)
  {
  }

  /** Every event keeps the provider settled. */
  lemma StepKeepsSettled(p: Provider, e: Event)
    requires Settled(p)
    ensures Settled(Step(p, e))
  {
  }

  /**
   * After any sequence of events the saved value and `data-theme` equal
   * the mode and the `dark` class is present exactly in dark mode.
   */
  lemma {:induction false} RunKeepsSettled(p: Provider, events: seq<Event>)
    requires Settled(p)
    ensures Settled(Run(p, events))
    decreases |events|
  {
    if |events| > 0 {
      StepKeepsSettled(p, events[0]);
      RunKeepsSettled(Step(p, events[0]), events[1..]);
    }
  }

  /** The events other than system-preference changes. */
  function UserEvents(events: seq<Event>): (r: seq<Event>)
    ensures forall e :: e in r <==> e in events && !e.SystemChange?
    decreases |events|
  {
    if |events| == 0 then []
    else
      var rest := UserEvents(events[1..]);
      assert forall e :: e in events <==> e == events[0] || e in events[1..];
      if events[0].SystemChange? then rest else [events[0]] + rest
  }

  /**
   * Once settled, system-preference changes are never applied: the
   * provider ends where the same run without them ends.
   */
  lemma {:induction false} RunIgnoresSystemChanges(p: Provider, events: seq<Event>)
    requires Settled(p)
    ensures Run(p, events) == Run(p, UserEvents(events))
    decreases |events|
  {
    if |events| > 0 {
      var e := events[0];
      StepKeepsSettled(p, e);
      RunIgnoresSystemChanges(Step(p, e), events[1..]);
      if !e.SystemChange? {
        var u := [e] + UserEvents(events[1..]);
        assert u[0] == e && u[1..] == UserEvents(events[1..]);
      }
    }
  }

  /** What `useTheme` returns. */
  datatype Context = Context(colorMode: Mode, theme: ThemeTokens)

  /** A component either sits inside a provider or reads the default context. */
  datatype Consumer = Outside | Inside(provider: Provider)

  function ContextOf(c: Consumer): Context {
    match c
    case Outside => Context("light", LightTheme)
    case Inside(p) => Context(p.mode, ThemeFor(p.mode))
  }

  /** The setters a consumer calls; outside a provider they are the default context's no-ops. */
  function Dispatch(c: Consumer, e: Event): Consumer {
    match c
    case Outside => Outside
    case Inside(p) => Inside(Step(p, e))
  }

  /**
   * The default context looks like a provider in light mode, and nothing a
   * consumer outside a provider calls changes it.
   */
  lemma DefaultContextIsInertLight(e: Event, dom: Dom)
    ensures ContextOf(Outside) == ContextOf(Inside(Provider("light", dom)))
    ensures ContextOf(Dispatch(Outside, e)) == ContextOf(Outside)
  {
  }

  /**
   * The theme is the light one exactly in light mode; in a settled
   * provider the `dark` class is on exactly in dark mode, so a saved value
   * outside the two names (say "blue") gets the dark tokens without the
   * `dark` class.
   */
  lemma ThemeAndDarkClass(p: Provider)
    requires Settled(p)
    ensures ThemeFor(p.mode) == LightTheme <==> p.mode == "light"
    ensures p.dom.darkClass ==> ThemeFor(p.mode) == DarkTheme
    ensures ThemeFor(p.mode) == DarkTheme && !p.dom.darkClass <==> p.mode != "light" && p.mode != "dark"
  {
  }
}

=== FILE: toast_layout.dfy ===
/**
 * Where toasts are placed: the anchor classes `ToastContainer` derives
 * from a position name with `startsWith` / `endsWith`, and the fixed
 * `positionClasses` table of a single `Toast`.
 */
module ToastLayout {
  import opened Js
  import opened ToastStore

  /** The string each position is written as in the props. */
  function PositionName(p: Position): string {
    match p
    case TopRight => "top-right"
    case TopLeft => "top-left"
    case BottomRight => "bottom-right"
    case BottomLeft => "bottom-left"
    case TopCenter => "top-center"
    case BottomCenter => "bottom-center"
  }

  /** The position a prop string names, if any. */
  function PositionNamed(name: string): (r: Option<Position>)
    ensures r.Some? ==> PositionName(r.value) == name
  {
    if name == "top-right" then Some(TopRight)
    else if name == "top-left" then Some(TopLeft)
    else if name == "bottom-right" then Some(BottomRight)
    else if name == "bottom-left" then Some(BottomLeft)
    else if name == "top-center" then Some(TopCenter)
    else if name == "bottom-center" then Some(BottomCenter)
    else None
  }

  lemma PositionNameRoundTrip(p: Position)
    ensures PositionNamed(PositionName(p)) == Some(p)
  {
  }

  predicate IsTop(p: Position) {
    p == TopRight || p == TopLeft || p == TopCenter
  }

  /** The container's vertical anchor. */
  datatype Edge = Top0 | Bottom0

  /** The container's horizontal anchor. */
  datatype Side = Left0 | Right0 | Centered

  function EdgeClass(e: Edge): string {
    match e
    case Top0 => "top-0"
    case Bottom0 => "bottom-0"
  }

  function SideClass(s: Side): string {
    match s
    case Left0 => "left-0"
    case Right0 => "right-0"
    case Centered => Centred
  }

  /** The `startsWith("top")` test on a position's name holds exactly for the three top positions. */
  lemma NameStartsWithTop(p: Position)
    ensures StartsWith(PositionName(p), "top") <==> IsTop(p)
  {
    var name := PositionName(p);
    if IsTop(p) {
      assert name[..3] == "top";
    } else {
      assert name[0] == 'b';
    }
  }

  /** The `endsWith` tests on a position's name: "left" for the two left positions, "right" for the two right ones. */
  lemma NameEndsWithSide(p: Position)
    ensures EndsWith(PositionName(p), "left") <==> p == TopLeft || p == BottomLeft
    ensures EndsWith(PositionName(p), "right") <==> p == TopRight || p == BottomRight
  {
    var name := PositionName(p);
    match p
    case TopRight =>
      assert name[|name| - 5..] == "right" && name[|name| - 4] == 'i';
    case TopLeft =>
      assert name[|name| - 4..] == "left";
    case BottomRight =>
      assert name[|name| - 5..] == "right" && name[|name| - 4] == 'i';
    case BottomLeft =>
      assert name[|name| - 4..] == "left";
    case TopCenter =>
      assert name[|name| - 4] == 'n' && name[|name| - 5] == 'e';
    case BottomCenter =>
      assert name[|name| - 4] == 'n' && name[|name| - 5] == 'e';
  }

  /**
   * The container's vertical anchor, chosen by testing the position's name;
   * the default is the top right. Exactly the three top positions pin to
   * the top.
   */
  function ContainerEdge(position: Option<Position>): (e: Edge)
    ensures e == Top0 <==> IsTop(position.GetOr(TopRight))
  {
    NameStartsWithTop(position.GetOr(TopRight));
    if StartsWith(PositionName(position.GetOr(TopRight)), "top") then Top0 else Bottom0
  }

  /**
   * The container's horizontal anchor: left exactly for the two left
   * positions, right exactly for the two right ones, centred otherwise.
   */
  function ContainerSide(position: Option<Position>): (s: Side)
    ensures var p := position.GetOr(TopRight);
            && (s == Left0 <==> p == TopLeft || p == BottomLeft)
            && (s == Right0 <==> p == TopRight || p == BottomRight)
  {
    var name := PositionName(position.GetOr(TopRight));
    NameEndsWithSide(position.GetOr(TopRight));
    if EndsWith(name, "left") then Left0
    else if EndsWith(name, "right") then Right0
    else Centered
  }

  /** The layout classes every container carries before its anchors. */
  const ContainerBase := "fixed z-50 flex flex-col gap-2 max-w-sm w-full p-4"

  /**
   * The container's class arguments: the fixed layout, then the edge anchor
   * ("top-0" or "bottom-0"), then the side anchor ("left-0", "right-0", or
   * centred by translation).
   */
  function ContainerClasses(position: Option<Position>): (c: seq<string>)
    ensures |c| == 3 && c[0] == ContainerBase
    ensures c[1] == "top-0" || c[1] == "bottom-0"
    ensures c[1] == "top-0" <==> IsTop(position.GetOr(TopRight))
    ensures var p := position.GetOr(TopRight);
            && (c[2] == "left-0" <==> p == TopLeft || p == BottomLeft)
            && (c[2] == "right-0" <==> p == TopRight || p == BottomRight)
            && (c[2] == Centred <==> p == TopCenter || p == BottomCenter)
  {
    [ContainerBase, EdgeClass(ContainerEdge(position)), SideClass(ContainerSide(position))]
  }

  /** Six positions, six different anchor pairs. */
  lemma ContainerAnchorInjective(p: Position, q: Position)
    requires ContainerEdge(Some(p)) == ContainerEdge(Some(q))
    requires ContainerSide(Some(p)) == ContainerSide(Some(q))
    ensures p == q
  {
  }

  /** The side part of the two centred `positionClasses` entries. */
  const Centred := "left-1/2 -translate-x-1/2"

  /**
   * The `positionClasses` table a single `Toast` uses, each entry written as
   * its edge part followed by its side part ("top-4 " + "right-4" is
   * "top-4 right-4"). An entry starts with "top" exactly for the top
   * positions, and ends with "left-4" or "right-4" exactly for the positions
   * on that side.
   */
  function ToastPositionClasses(p: Position): (c: string)
    ensures StartsWith(c, "top") <==> IsTop(p)
    ensures EndsWith(c, "left-4") <==> p == TopLeft || p == BottomLeft
    ensures EndsWith(c, "right-4") <==> p == TopRight || p == BottomRight
  {
    var edge := if IsTop(p) then "top-4 " else "bottom-4 ";
    var side := match p
      case TopRight | BottomRight => "right-4"
      case TopLeft | BottomLeft => "left-4"
      case _ => Centred;
    assert StartsWith(edge, "top") <==> IsTop(p) by {
      if !IsTop(p) { assert edge[0] == 'b'; }
    }
    assert EndsWith(side, "left-4") <==> p == TopLeft || p == BottomLeft by {
      if side == "right-4" { assert side[1] == 'i'; }
      if side == "left-4" { assert side[0] == 'l'; }
      if side == Centred { assert side[|side| - 1] == '2'; }
    }
    assert EndsWith(side, "right-4") <==> p == TopRight || p == BottomRight by {
      if side == Centred { assert side[|side| - 1] == '2'; }
    }
    AffixesOfJoin(edge, side);
    edge + side
  }

  /** A prefix no longer than the first part, and a suffix no longer than the second, are decided by that part alone. */
  lemma AffixesOfJoin(a: string, b: string)
    requires |a| >= 3 && |b| >= 6
    ensures StartsWith(a + b, "top") <==> StartsWith(a, "top")
    ensures EndsWith(a + b, "left-4") <==> EndsWith(b, "left-4")
    ensures |b| >= 7 ==> (EndsWith(a + b, "right-4") <==> EndsWith(b, "right-4"))
    ensures |b| == 6 && b[0] != 'i' ==> !EndsWith(a + b, "right-4")
  {
    var ab := a + b;
    assert ab[..3] == a[..3];
    assert ab[|ab| - 6..] == b[|b| - 6..];
    if |b| >= 7 {
      assert ab[|ab| - 7..] == b[|b| - 7..];
    } else if EndsWith(ab, "right-4") {
      assert ab[|ab| - 6] == b[0];
      assert ab[|ab| - 7..][1] == 'i';
    }
  }

  /** A toast's table entry starts with "top" exactly when a container at its position pins to the top. */
  lemma ToastEdgeAgreesWithContainer(p: Position)
    ensures StartsWith(ToastPositionClasses(p), "top") <==> ContainerEdge(Some(p)) == Top0
  {
  }

  /**
   * A toast's table entry ends with "left-4" or "right-4" exactly when a
   * container at its position pins to that side.
   */
  lemma ToastSideAgreesWithContainer(p: Position)
    ensures EndsWith(ToastPositionClasses(p), "left-4") <==> ContainerSide(Some(p)) == Left0
    ensures EndsWith(ToastPositionClasses(p), "right-4") <==> ContainerSide(Some(p)) == Right0
  {
  }
}

=== FILE: toast_lifecycle.dfy ===
/**
 * The lifecycle of one mounted `Toast` component: the `isVisible` and
 * `isExiting` state, the auto-close timer armed on mount, and the 300 ms
 * exit timer that every `handleClose` arms.
 *
 * Timers are explicit: a deadline in milliseconds is armed, and a separate
 * event fires it once the clock has reached the deadline. The event loop may
 * deliver a due timer late, so firing is allowed at any time at or after the
 * deadline. An event that is not enabled (a click on a button that is not
 * rendered, a timer that is not armed or not yet due) changes nothing.
 */
module ToastLifecycle {
  import opened Js
  import opened ToastStore

  /** The length of the exit animation, after which the toast hides and calls `onClose`. */
  const ExitWindowMs: int := 300

  /** The auto-close duration a toast gets when the caller gives none. */
  const DefaultDurationMs: int := 5000

  /** The props a `Toast` acts on, after its parameter defaults are applied. */
  datatype Settings = Settings(
    variant: Variant,
    duration: int,
    closable: bool,
    position: Position,
    hasAction: bool)

  /** The parameter defaults of `Toast` and the condition `actionText && onAction`. */
  function SettingsOf(t: Toast): (st: Settings)
    ensures t.duration.Some? ==> st.duration == t.duration.value
    ensures t.duration.None? ==> st.duration == DefaultDurationMs
    ensures st.closable <==> t.closable != Some(false)
    ensures t.position.Some? ==> st.position == t.position.value
    ensures t.position.None? ==> st.position == TopRight
    ensures t.variant.Some? ==> st.variant == t.variant.value
    ensures t.variant.None? ==> st.variant == Info
    ensures st.hasAction <==> t.actionText.Some? && t.actionText.value != "" && t.onAction.Some?
  {
    Settings(
      t.variant.GetOr(Info),
      t.duration.GetOr(DefaultDurationMs),
      t.closable.GetOr(true),
      t.position.GetOr(TopRight),
      Truthy(t.actionText) && t.onAction.Some?)
  }

  /**
   * The component state plus its timers. `autoDeadline` is the pending
   * auto-close timer; `exitDeadlines` are the pending exit timers, oldest
   * first.
   */
  datatype Life = Life(
    now: int,
    mounted: bool,
    visible: bool,
    exiting: bool,
    autoDeadline: Option<int>,
    exitDeadlines: seq<int>)

  datatype Event =
    | Elapse(ms: nat)
    | CloseClick
    | ActionClick
    | AutoTimerFires
    | ExitTimerFires
    | Unmount

  /** A callback the component runs, with the time it ran. */
  datatype Effect = RanOnAction(at: int) | RanOnClose(at: int)

  /** What the component renders while it renders anything. */
  datatype View = View(
    slidingOut: bool,
    closeButton: bool,
    actionButton: bool,
    titleShown: bool,
    variant: Variant,
    position: Position)

  /**
   * The delay a timer really waits for `setTimeout(f, ms)`: Web IDL converts
   * the argument to a `long`, a 32-bit signed integer, by wrapping it modulo
   * 2^32, and the HTML timer initialisation steps then raise a negative
   * delay to 0. Delays below 2^31 ms are kept exactly.
   */
  function TimerDelay(ms: int): (d: nat)
    ensures 0 <= ms < 0x8000_0000 ==> d == ms
    ensures -0x8000_0000 <= ms < 0 ==> d == 0
    ensures d < 0x8000_0000
    ensures (d - ms) % 0x1_0000_0000 == 0 || d == 0
    ensures d == 0 <==> ms % 0x1_0000_0000 == 0 || ms % 0x1_0000_0000 >= 0x8000_0000
    ensures d > 0 ==> (d - ms) % 0x1_0000_0000 == 0
  {
    var wrapped := ms % 0x1_0000_0000;
    var asLong := if wrapped >= 0x8000_0000 then wrapped - 0x1_0000_0000 else wrapped;
    if asLong < 0 then 0 else asLong
  }

  /** A duration of 2^32 ms or more wraps: 2^32 + 5 ms waits 5 ms. */
  lemma TimerDelayWraps(ms: int)
    requires 0x1_0000_0000 <= ms < 0x1_8000_0000
    ensures TimerDelay(ms) == ms - 0x1_0000_0000
    ensures TimerDelay(0x1_0000_0005) == 5
  {
  }

  /**
   * The first render and the mount effect: visible, not exiting, and the
   * auto-close timer armed when `duration > 0`, to fire after the delay the
   * timer actually waits.
   */
  function Mount(st: Settings, now: int): (life: Life)
    ensures life.mounted && life.visible && !life.exiting && life.exitDeadlines == []
    ensures life.autoDeadline.Some? <==> st.duration > 0
    ensures life.autoDeadline.Some? ==> life.autoDeadline.value == now + TimerDelay(st.duration)
    ensures life.autoDeadline.Some? && st.duration < 0x8000_0000 ==> life.autoDeadline.value == now + st.duration
  {
    Life(now, true, true, false, if st.duration > 0 then Some(now + TimerDelay(st.duration)) else None, [])
  }

  /** `handleClose`: mark exiting and arm one more exit timer. Nothing guards a second call. */
  function HandleClose(life: Life): (r: Life)
    ensures r.exiting
    ensures r.exitDeadlines == life.exitDeadlines + [life.now + ExitWindowMs]
    ensures r.now == life.now && r.mounted == life.mounted && r.visible == life.visible
    ensures r.autoDeadline == life.autoDeadline
  {
    life.(exiting := true, exitDeadlines := life.exitDeadlines + [life.now + ExitWindowMs])
  }

  /** The buttons are clickable only while the component renders them. */
  predicate Rendered(life: Life) {
    life.mounted && life.visible
  }

  /**
   * One event. Only `Elapse` moves the clock; every callback run is stamped
   * with the time of the event; `onClose` runs exactly when a due exit timer
   * fires, and `onAction` exactly when the rendered action button is clicked.
   */
  function Step(st: Settings, life: Life, e: Event): (r: (Life, seq<Effect>))
    ensures r.0.now == life.now + (if e.Elapse? then e.ms else 0)
    ensures life.exiting ==> r.0.exiting
    ensures !life.visible ==> !r.0.visible
    ensures !life.exiting && r.0.exiting ==> e.CloseClick? || e.ActionClick? || e.AutoTimerFires?
    ensures r.1 == [RanOnClose(life.now)] <==>
              e.ExitTimerFires? && |life.exitDeadlines| > 0 && life.exitDeadlines[0] <= life.now
    ensures r.1 == [RanOnAction(life.now)] <==> e.ActionClick? && Rendered(life) && st.hasAction
    ensures |r.1| <= 1
    ensures e.CloseClick? && Rendered(life) && st.closable ==> r.0 == HandleClose(life)
    ensures e.ActionClick? && Rendered(life) && st.hasAction ==> r.0 == HandleClose(life)
    ensures e.AutoTimerFires? && life.autoDeadline.Some? && life.autoDeadline.value <= life.now ==>
              r.0 == HandleClose(life.(autoDeadline := None))
    ensures (e.CloseClick? || e.ActionClick?) && !Rendered(life) ==> r == (life, [])
    ensures e.Elapse? ==> r.0 == life.(now := life.now + e.ms)
    ensures e.ExitTimerFires? && |life.exitDeadlines| > 0 && life.exitDeadlines[0] <= life.now ==>
              r.0 == life.(visible := false, exitDeadlines := life.exitDeadlines[1..])
    ensures e.Unmount? ==> r.0 == life.(mounted := false, autoDeadline := None)
  {
    match e
    case Elapse(ms) =>
      (life.(now := life.now + ms), [])
    case CloseClick =>
      if Rendered(life) && st.closable then (HandleClose(life), []) else (life, [])
    case ActionClick =>
      if Rendered(life) && st.hasAction then (HandleClose(life), [RanOnAction(life.now)])
      else (life, [])
    case AutoTimerFires =>
      if life.autoDeadline.Some? && life.autoDeadline.value <= life.now
      then (HandleClose(life.(autoDeadline := None)), [])
      else (life, [])
    case ExitTimerFires =>
      if |life.exitDeadlines| > 0 && life.exitDeadlines[0] <= life.now
      then (life.(visible := false, exitDeadlines := life.exitDeadlines[1..]), [RanOnClose(life.now)])
      else (life, [])
    case Unmount =>
      // the effect cleanup clears the auto-close timer; exit timers stay armed
      (life.(mounted := false, autoDeadline := None), [])
  }

  function Run(st: Settings, life: Life, events: seq<Event>): (Life, seq<Effect>)
    decreases |events|
  {
    if |events| == 0 then (life, [])
    else
      var (next, now) := Step(st, life, events[0]);
      var (last, later) := Run(st, next, events[1..]);
      (last, now + later)
  }

  /**
   * The component body while it is mounted (React runs it only then):
   * nothing once hidden, otherwise the toast with its buttons. The
   * `mounted` flag only says which events reach the component.
   */
  function Render(t: Toast, life: Life): (v: Option<View>)
    ensures v.Some? <==> life.visible
    ensures v.Some? ==> v.value.closeButton == t.closable.GetOr(true)
    ensures v.Some? ==> (v.value.actionButton <==> Truthy(t.actionText) && t.onAction.Some?)
    ensures v.Some? ==> v.value.slidingOut == life.exiting
    ensures v.Some? ==> v.value.titleShown == Truthy(t.title)
  {
    if !life.visible then None
    else
      var st := SettingsOf(t);
      Some(View(life.exiting, st.closable, st.hasAction, Truthy(t.title), st.variant, st.position))
  }

  // ----- Properties over event sequences -----

  predicate NoClicks(events: seq<Event>) {
    forall i :: 0 <= i < |events| ==> events[i] != CloseClick && events[i] != ActionClick
  }

  /** Once exiting, a toast never stops exiting. */
  lemma {:induction false} ExitingIsPermanent(st: Settings, life: Life, events: seq<Event>)
    requires life.exiting
    ensures Run(st, life, events).0.exiting
    decreases |events|
  {
    if |events| > 0 {
      ExitingIsPermanent(st, Step(st, life, events[0]).0, events[1..]);
    }
  }

  /** Once hidden, a toast renders nothing for the rest of its life. */
  lemma {:induction false} HiddenIsPermanent(t: Toast, life: Life, events: seq<Event>)
    requires !life.visible
    ensures !Run(SettingsOf(t), life, events).0.visible
    ensures Render(t, Run(SettingsOf(t), life, events).0) == None
    decreases |events|
  {
    if |events| > 0 {
      HiddenIsPermanent(t, Step(SettingsOf(t), life, events[0]).0, events[1..]);
    }
  }

  /** A toast that was never closed, with no timer pending. */
  predicate Quiet(life: Life) {
    life.visible && !life.exiting && life.autoDeadline.None? && life.exitDeadlines == []
  }

  /**
   * A duration of zero or less never arms the auto-close timer, so without
   * a click the toast stays visible and runs no callback, however long it
   * is observed. Negative durations are not rejected.
   */
  lemma {:induction false} NoAutoCloseWithoutPositiveDuration(st: Settings, life: Life, events: seq<Event>)
    requires Quiet(life)
    requires NoClicks(events)
    ensures Quiet(Run(st, life, events).0)
    ensures Run(st, life, events).1 == []
    decreases |events|
  {
    if |events| > 0 {
      assert events[0] != CloseClick && events[0] != ActionClick;
      assert NoClicks(events[1..]) by {
        forall i | 0 <= i < |events| - 1
          ensures events[1..][i] != CloseClick && events[1..][i] != ActionClick
        {
          assert events[1..][i] == events[i + 1];
        }
      }
      NoAutoCloseWithoutPositiveDuration(st, Step(st, life, events[0]).0, events[1..]);
    }
  }

  lemma MountWithoutDurationIsQuiet(st: Settings, now: int)
    requires st.duration <= 0
    ensures Quiet(Mount(st, now))
  {
  }

  /** The timing facts that hold after a mount at `t0` with `d > 0`, while no button is clicked. */
  predicate Timed(life: Life, t0: int, d: int) {
    && life.now >= t0
    && (life.autoDeadline.Some? ==> life.autoDeadline.value == t0 + d)
    && (!life.exiting ==> life.visible && life.exitDeadlines == [])
    && (life.exiting ==> life.now >= t0 + d)
    && (forall k :: 0 <= k < |life.exitDeadlines| ==> life.exitDeadlines[k] >= t0 + d + ExitWindowMs)
    && (!life.visible ==> life.now >= t0 + d + ExitWindowMs)
  }

  /** Pending closes: armed exit timers plus the auto-close timer. */
  function Pending(life: Life): nat {
    |life.exitDeadlines| + (if life.autoDeadline.Some? then 1 else 0)
  }

  function Closes(effects: seq<Effect>): nat {
    if |effects| == 0 then 0
    else (if effects[0].RanOnClose? then 1 else 0) + Closes(effects[1..])
  }

  lemma {:induction false} ClosesAppend(a: seq<Effect>, b: seq<Effect>)
    ensures Closes(a + b) == Closes(a) + Closes(b)
  {
    if |a| == 0 {
      assert a + b == b;
    } else {
      assert (a + b)[0] == a[0];
      assert (a + b)[1..] == a[1..] + b;
      ClosesAppend(a[1..], b);
    }
  }

  lemma StepTimed(st: Settings, life: Life, e: Event, t0: int, d: int)
    requires Timed(life, t0, d)
    requires e != CloseClick && e != ActionClick
    ensures Timed(Step(st, life, e).0, t0, d)
    ensures forall k :: 0 <= k < |Step(st, life, e).1| ==>
              Step(st, life, e).1[k].RanOnClose? && Step(st, life, e).1[k].at >= t0 + d + ExitWindowMs
    ensures Closes(Step(st, life, e).1) + Pending(Step(st, life, e).0) <= Pending(life)
  {
    var next := Step(st, life, e).0;
    match e
    case AutoTimerFires =>
      if life.autoDeadline.Some? && life.autoDeadline.value <= life.now {
        assert next.exitDeadlines == life.exitDeadlines + [life.now + ExitWindowMs];
        forall k | 0 <= k < |next.exitDeadlines|
          ensures next.exitDeadlines[k] >= t0 + d + ExitWindowMs
        {
          if k < |life.exitDeadlines| {
            assert next.exitDeadlines[k] == life.exitDeadlines[k];
          }
        }
      }
    case ExitTimerFires =>
      if |life.exitDeadlines| > 0 && life.exitDeadlines[0] <= life.now {
        forall k | 0 <= k < |next.exitDeadlines|
          ensures next.exitDeadlines[k] >= t0 + d + ExitWindowMs
        {
          assert next.exitDeadlines[k] == life.exitDeadlines[k + 1];
        }
      }
    case Elapse(_) =>
    case Unmount =>
  }

  /**
   * With `duration > 0` and no click, the toast starts exiting no earlier
   * than the timer's delay `d` after mounting (the duration itself below
   * 2^31 ms), hides and runs `onClose` no earlier than `d + 300` ms after
   * mounting, runs no other callback, and runs `onClose` at most once.
   */
  lemma {:induction false} AutoCloseTiming(st: Settings, life: Life, events: seq<Event>, t0: int)
    requires st.duration > 0
    requires Timed(life, t0, TimerDelay(st.duration))
    requires NoClicks(events)
    ensures Timed(Run(st, life, events).0, t0, TimerDelay(st.duration))
    ensures forall k :: 0 <= k < |Run(st, life, events).1| ==>
              Run(st, life, events).1[k] == RanOnClose(Run(st, life, events).1[k].at)
              && Run(st, life, events).1[k].at >= t0 + TimerDelay(st.duration) + ExitWindowMs
    ensures Closes(Run(st, life, events).1) + Pending(Run(st, life, events).0) <= Pending(life)
    decreases |events|
  {
    if |events| > 0 {
      var (next, now) := Step(st, life, events[0]);
      assert events[0] != CloseClick && events[0] != ActionClick;
      StepTimed(st, life, events[0], t0, TimerDelay(st.duration));
      assert NoClicks(events[1..]) by {
        forall i | 0 <= i < |events| - 1
          ensures events[1..][i] != CloseClick && events[1..][i] != ActionClick
        {
          assert events[1..][i] == events[i + 1];
        }
      }
      AutoCloseTiming(st, next, events[1..], t0);
      var later := Run(st, next, events[1..]).1;
      ClosesAppend(now, later);
      forall k | 0 <= k < |now + later|
        ensures (now + later)[k] == RanOnClose((now + later)[k].at)
        ensures (now + later)[k].at >= t0 + TimerDelay(st.duration) + ExitWindowMs
      {
        if k >= |now| {
          assert (now + later)[k] == later[k - |now|];
        }
      }
    }
  }

  lemma MountIsTimed(st: Settings, t0: int)
    requires st.duration > 0
    ensures Timed(Mount(st, t0), t0, TimerDelay(st.duration))
    ensures Pending(Mount(st, t0)) == 1
  {
  }

  /**
   * A duration of 2^31 ms or more does not wait that long: 2^31 wraps to a
   * negative delay, which is raised to 0, so the auto-close timer is due at
   * once and the toast starts exiting on its first firing.
   */
  lemma HugeDurationClosesAtOnce(st: Settings, t0: int)
    requires st.duration == 0x8000_0000
    ensures Mount(st, t0).autoDeadline == Some(t0)
    ensures Step(st, Mount(st, t0), AutoTimerFires).0.exiting
  {
  }

  /** The action button runs `onAction` and then closes the toast as the close button does. */
  lemma ActionButtonAlsoCloses(st: Settings, life: Life)
    requires Rendered(life) && st.hasAction
    ensures Step(st, life, ActionClick).1 == [RanOnAction(life.now)]
    ensures Step(st, life, ActionClick).0.exiting
    ensures Step(st, life, ActionClick).0.exitDeadlines == life.exitDeadlines + [life.now + ExitWindowMs]
  {
  }

  /**
   * Nothing deduplicates `handleClose`: two clicks on the close button
   * within the exit window run `onClose` twice.
   */
  lemma DoubleClickRunsOnCloseTwice(st: Settings)
    requires st.closable && st.duration <= 0
    ensures Run(st, Mount(st, 0), [CloseClick, CloseClick, Elapse(300), ExitTimerFires, ExitTimerFires]).1
            == [RanOnClose(300), RanOnClose(300)]
  {
  }

  /**
   * A manual close does not cancel the auto-close timer: a click 100 ms
   * before the default 5000 ms deadline lets the timer fire during the exit
   * window and run `onClose` a second time.
   */
  lemma CloseNearDeadlineRunsOnCloseTwice(st: Settings)
    requires st.closable && st.duration == DefaultDurationMs
    ensures Run(st, Mount(st, 0),
                [Elapse(4900), CloseClick, Elapse(100), AutoTimerFires,
                 Elapse(200), ExitTimerFires, Elapse(100), ExitTimerFires]).1
            == [RanOnClose(5200), RanOnClose(5300)]
  {
  }

  /** Unmounting cancels the auto-close timer but not a pending exit timer, which still runs `onClose`. */
  lemma UnmountKeepsExitTimer(st: Settings, life: Life)
    requires |life.exitDeadlines| > 0 && life.exitDeadlines[0] <= life.now
    ensures Step(st, life, Unmount).0.autoDeadline == None
    ensures Run(st, life, [Unmount, ExitTimerFires]).1 == [RanOnClose(life.now)]
  {
    var u := Step(st, life, Unmount).0;
    assert Run(st, u, [ExitTimerFires]).1 == [RanOnClose(life.now)];
  }

  // ----- The lifecycle's callbacks delivered to the store -----

  /**
   * The store after the component of `t` has run `effects`: every
   * `onClose` runs the record's wrapped handler; `onAction` is the caller's
   * and does not touch the store.
   */
  function Deliver(m: Manager, t: Toast, effects: seq<Effect>): Manager
    decreases |effects|
  {
    if |effects| == 0 then m
    else if effects[0].RanOnClose? then Deliver(Close(m, t.onClose), t, effects[1..])
    else Deliver(m, t, effects[1..])
  }

  /**
   * However many times the component runs `onClose`, the store ends up as
   * after a single run; with no `onClose` it is untouched.
   */
  lemma {:induction false} DeliverLikeSingleClose(m: Manager, t: Toast, effects: seq<Effect>)
    ensures Closes(effects) == 0 ==> Deliver(m, t, effects).toasts == m.toasts
    ensures Closes(effects) > 0 ==> Deliver(m, t, effects).toasts == Close(m, t.onClose).toasts
    decreases |effects|
  {
    if |effects| > 0 {
      if effects[0].RanOnClose? {
        var once := Close(m, t.onClose);
        DeliverLikeSingleClose(once, t, effects[1..]);
        CloseTwiceLikeOnce(m, t.onClose);
      } else {
        DeliverLikeSingleClose(m, t, effects[1..]);
      }
    }
  }

  /** A record the store built removes exactly itself, by id, when its component closes it. */
  lemma AddedRecordClosesItself(m: Manager, o: ToastOptions, id: ToastId, effects: seq<Effect>)
    requires Closes(effects) > 0
    ensures var added := Add(m, o, id).0;
            Deliver(added, Last(added.toasts), effects).toasts == Remove(added, id).toasts
  {
    var added := Add(m, o, id).0;
    DeliverLikeSingleClose(added, Last(added.toasts), effects);
  }
}

=== FILE: toast_store.dfy ===
/**
 * The toast manager built by `createToastManager`: an ordered sequence of
 * toast records, a listener list, and the operations `add`, `remove` and
 * `removeAll`, each of which replaces the sequence and then notifies.
 *
 * Callbacks are not run as code. Every callback the manager runs is
 * appended to `calls`, together with the toast ids the callback can observe
 * in the store at that moment. Listeners and caller callbacks are known by
 * their identity, so `!==` on functions becomes `!=` on identities.
 */
module ToastStore {
  import opened Js

  datatype Variant = Info | Success | Warning | Error

  datatype Position = TopRight | TopLeft | BottomRight | BottomLeft | TopCenter | BottomCenter

  type ToastId = string

  /** Identity of a caller-supplied callback (`onAction`, `onClose`). */
  type CallbackId = nat

  /** Identity of a listener function. */
  type ListenerId = nat

  /** What a caller passes to `add`: every toast prop except `id`. */
  datatype ToastOptions = ToastOptions(
    message: string,
    title: Option<string>,
    variant: Option<Variant>,
    duration: Option<int>,
    closable: Option<bool>,
    position: Option<Position>,
    actionText: Option<string>,
    onAction: Option<CallbackId>,
    onClose: Option<CallbackId>)

  /**
   * The `onClose` that `add` stores in place of the caller's: remove the
   * record `target` from the store, then run the caller's `onClose`, if any.
   */
  datatype CloseHandler = RemoveThenCall(target: ToastId, user: Option<CallbackId>)

  /** A stored toast record. */
  datatype Toast = Toast(
    id: ToastId,
    message: string,
    title: Option<string>,
    variant: Option<Variant>,
    duration: Option<int>,
    closable: Option<bool>,
    position: Option<Position>,
    actionText: Option<string>,
    onAction: Option<CallbackId>,
    onClose: CloseHandler)

  /** One callback run by the store, with the toast ids it observes. */
  datatype Call =
    | ListenerCall(listener: ListenerId, sees: seq<ToastId>)
    | UserCloseCall(callback: CallbackId, sees: seq<ToastId>)

  datatype Manager = Manager(toasts: seq<Toast>, listeners: seq<ListenerId>, calls: seq<Call>)

  /** The ids of a toast sequence, in order. */
  function Ids(ts: seq<Toast>): (r: seq<ToastId>)
    ensures |r| == |ts|
    ensures forall i :: 0 <= i < |ts| ==> r[i] == ts[i].id
  {
    if |ts| == 0 then [] else [ts[0].id] + Ids(ts[1..])
  }

  /** All ids in the sequence are pairwise distinct. */
  predicate DistinctIds(ts: seq<Toast>) {
    forall i, j :: 0 <= i < j < |ts| ==> ts[i].id != ts[j].id
  }

  /** The options a record was built from: the caller's `onClose` is the one the wrapper calls. */
  function OptionsOf(t: Toast): ToastOptions {
    ToastOptions(t.message, t.title, t.variant, t.duration, t.closable, t.position,
                 t.actionText, t.onAction, t.onClose.user)
  }

  /** A fresh manager: no toasts, no listeners, nothing run yet. */
  function Create(): (m: Manager)
    ensures m.toasts == [] && m.listeners == [] && m.calls == []
  {
    Manager([], [], [])
  }

  /** One call per listener, in registration order, each observing `sees`. */
  function Broadcast(listeners: seq<ListenerId>, sees: seq<ToastId>): (r: seq<Call>)
    ensures |r| == |listeners|
    ensures forall i :: 0 <= i < |listeners| ==> r[i] == ListenerCall(listeners[i], sees)
  {
    if |listeners| == 0 then [] else [ListenerCall(listeners[0], sees)] + Broadcast(listeners[1..], sees)
  }

  /** `notify`: run every registered listener once against the current store. */
  function Notify(m: Manager): (m': Manager)
    ensures m'.toasts == m.toasts && m'.listeners == m.listeners
    ensures |m'.calls| == |m.calls| + |m.listeners| && m'.calls[..|m.calls|] == m.calls
    ensures forall i :: 0 <= i < |m.listeners| ==>
              m'.calls[|m.calls| + i] == ListenerCall(m.listeners[i], Ids(m.toasts))
  {
    m.(calls := m.calls + Broadcast(m.listeners, Ids(m.toasts)))
  }

  function Last<T>(s: seq<T>): T
    requires |s| > 0
  {
    s[|s| - 1]
  }

  /**
   * `add(options)`: append a record with the minted `id` and the wrapped
   * `onClose`, notify, and return the id. `id` is what `Date.now()` and
   * `Math.random()` produce; the store does not check it.
   */
  function Add(m: Manager, options: ToastOptions, id: ToastId): (r: (Manager, ToastId))
    ensures r.1 == id
    ensures |r.0.toasts| == |m.toasts| + 1 && r.0.toasts[..|m.toasts|] == m.toasts
    ensures Last(r.0.toasts).id == id
    ensures OptionsOf(Last(r.0.toasts)) == options
    ensures Last(r.0.toasts).onClose == RemoveThenCall(id, options.onClose)
    ensures r.0.listeners == m.listeners
    ensures r.0.calls == m.calls + Broadcast(m.listeners, Ids(r.0.toasts))
  {
    var toast := Toast(id, options.message, options.title, options.variant, options.duration,
                       options.closable, options.position, options.actionText, options.onAction,
                       RemoveThenCall(id, options.onClose));
    (Notify(m.(toasts := m.toasts + [toast])), id)
  }

  /** `toasts.filter(t => t.id !== id)`. */
  function Without(ts: seq<Toast>, id: ToastId): (r: seq<Toast>)
    ensures forall t :: t in r <==> t in ts && t.id != id
    ensures forall t :: multiset(r)[t] == if t.id != id then multiset(ts)[t] else 0
    ensures (forall t :: t in ts ==> t.id != id) ==> r == ts
  {
    if |ts| == 0 then []
    else
      assert ts == [ts[0]] + ts[1..];
      if ts[0].id == id then Without(ts[1..], id)
      else [ts[0]] + Without(ts[1..], id)
  }

  /** `remove(id)`: drop every record with that id, then notify, whether or not one was dropped. */
  function Remove(m: Manager, id: ToastId): (m': Manager)
    ensures m'.toasts == Without(m.toasts, id)
    ensures forall t :: t in m'.toasts <==> t in m.toasts && t.id != id
    ensures forall t :: multiset(m'.toasts)[t] == if t.id != id then multiset(m.toasts)[t] else 0
    ensures (forall t :: t in m.toasts ==> t.id != id) ==> m'.toasts == m.toasts
    ensures m'.listeners == m.listeners
    ensures m'.calls == m.calls + Broadcast(m.listeners, Ids(m'.toasts))
  {
    Notify(m.(toasts := Without(m.toasts, id)))
  }

  /** `removeAll()`: empty the sequence, then notify. */
  function RemoveAll(m: Manager): (m': Manager)
    ensures m'.toasts == []
    ensures m'.listeners == m.listeners
    ensures m'.calls == m.calls + Broadcast(m.listeners, [])
  {
    Notify(m.(toasts := []))
  }

  /** Running a stored record's wrapped `onClose`: remove the record, then call the caller's `onClose`. */
  function Close(m: Manager, h: CloseHandler): (m': Manager)
    ensures m'.toasts == Remove(m, h.target).toasts
    ensures forall t :: t in m'.toasts ==> t.id != h.target
    ensures m'.listeners == m.listeners
    ensures Remove(m, h.target).calls <= m'.calls
    ensures h.user.None? ==> |m'.calls| == |m.calls| + |m.listeners|
    ensures h.user.Some? ==>
              |m'.calls| == |m.calls| + |m.listeners| + 1
              && Last(m'.calls) == UserCloseCall(h.user.value, Ids(m'.toasts))
  {
    var removed := Remove(m, h.target);
    match h.user
    case Some(cb) => removed.(calls := removed.calls + [UserCloseCall(cb, Ids(removed.toasts))])
    case None => removed
  }

  /** `listeners.filter(l => l !== listener)`. */
  function Drop(ls: seq<ListenerId>, l: ListenerId): (r: seq<ListenerId>)
    ensures forall x :: x in r <==> x in ls && x != l
    ensures forall x :: multiset(r)[x] == if x != l then multiset(ls)[x] else 0
    ensures l !in ls ==> r == ls
  {
    if |ls| == 0 then []
    else
      assert ls == [ls[0]] + ls[1..];
      if ls[0] == l then Drop(ls[1..], l)
      else [ls[0]] + Drop(ls[1..], l)
  }

  /**
   * `subscribe(listener)`: register the listener and hand back what the
   * returned unsubscribe function removes. The manager object never exposes
   * it, so no caller can reach it.
   */
  function Subscribe(m: Manager, l: ListenerId): (r: (Manager, ListenerId))
    ensures r.0.listeners == m.listeners + [l]
    ensures r.0.toasts == m.toasts && r.0.calls == m.calls
    ensures r.1 == l
  {
    (m.(listeners := m.listeners + [l]), l)
  }

  /** The function `subscribe` returns, applied. */
  function Unsubscribe(m: Manager, l: ListenerId): (m': Manager)
    ensures m'.listeners == Drop(m.listeners, l)
    ensures forall x :: x in m'.listeners <==> x in m.listeners && x != l
    ensures forall x :: multiset(m'.listeners)[x] == if x != l then multiset(m.listeners)[x] else 0
    ensures m'.toasts == m.toasts && m'.calls == m.calls
  {
    m.(listeners := Drop(m.listeners, l))
  }

  // ----- Properties of single operations -----

  /** The filter keeps the surviving records in their original order. */
  lemma {:induction false} WithoutDistributes(a: seq<Toast>, b: seq<Toast>, id: ToastId)
    ensures Without(a + b, id) == Without(a, id) + Without(b, id)
  {
    if |a| == 0 {
      assert a + b == b;
    } else {
      assert (a + b)[0] == a[0];
      assert (a + b)[1..] == a[1..] + b;
      WithoutDistributes(a[1..], b, id);
    }
  }

  /** The listener filter keeps the other listeners in their original order. */
  lemma {:induction false} DropDistributes(a: seq<ListenerId>, b: seq<ListenerId>, l: ListenerId)
    ensures Drop(a + b, l) == Drop(a, l) + Drop(b, l)
  {
    if |a| == 0 {
      assert a + b == b;
    } else {
      assert (a + b)[0] == a[0];
      assert (a + b)[1..] == a[1..] + b;
      DropDistributes(a[1..], b, l);
    }
  }

  /**
   * `remove` undoes `add`: removing the id just minted, when no earlier
   * record has it, gives back the earlier sequence exactly.
   */
  lemma AddThenRemove(m: Manager, options: ToastOptions, id: ToastId)
    requires forall t :: t in m.toasts ==> t.id != id
    ensures Remove(Add(m, options, id).0, id).toasts == m.toasts
    ensures |Remove(Add(m, options, id).0, id).calls| == |m.calls| + 2 * |m.listeners|
  {
    var added := Add(m, options, id).0;
    assert added.toasts == m.toasts + [Last(added.toasts)];
    WithoutDistributes(m.toasts, [Last(added.toasts)], id);
  }

  /** `remove` is idempotent on the sequence, but notifies again. */
  lemma RemoveIdempotent(m: Manager, id: ToastId)
    ensures Remove(Remove(m, id), id).toasts == Remove(m, id).toasts
    ensures |Remove(Remove(m, id), id).calls| == |m.calls| + 2 * |m.listeners|
  {
  }

  /** Removing an absent id changes nothing in the store, yet every listener runs. */
  lemma RemoveAbsentStillNotifies(m: Manager, id: ToastId)
    requires id !in Ids(m.toasts)
    ensures Remove(m, id).toasts == m.toasts
    ensures |Remove(m, id).calls| == |m.calls| + |m.listeners|
    ensures forall i :: 0 <= i < |m.listeners| ==>
              Remove(m, id).calls[|m.calls| + i] == ListenerCall(m.listeners[i], Ids(m.toasts))
  {
  }

  /** Removing one record leaves the others exactly where they were relative to each other. */
  lemma RemoveKeepsOthersInOrder(m: Manager, id: ToastId, k: nat)
    requires k < |m.toasts| && m.toasts[k].id == id
    ensures Remove(m, id).toasts == Without(m.toasts[..k], id) + Without(m.toasts[k + 1..], id)
  {
    assert m.toasts == m.toasts[..k] + ([m.toasts[k]] + m.toasts[k + 1..]);
    WithoutDistributes(m.toasts[..k], [m.toasts[k]] + m.toasts[k + 1..], id);
    WithoutDistributes([m.toasts[k]], m.toasts[k + 1..], id);
  }

  /**
   * A wrapped `onClose` run twice leaves the store as one run does; the
   * caller's `onClose` runs a second time, after a second notification.
   */
  lemma CloseTwiceLikeOnce(m: Manager, h: CloseHandler)
    ensures Close(Close(m, h), h).toasts == Close(m, h).toasts
    ensures h.user.Some? ==>
              |Close(Close(m, h), h).calls| == |m.calls| + 2 * |m.listeners| + 2
              && Last(Close(Close(m, h), h).calls) == Last(Close(m, h).calls)
  {
    var once := Close(m, h);
    assert Ids(Close(once, h).toasts) == Ids(once.toasts);
  }

  /** When the caller's `onClose` runs, the record it belongs to is already gone from the store. */
  lemma UserCloseSeesRecordGone(m: Manager, h: CloseHandler)
    requires h.user.Some?
    ensures Last(Close(m, h).calls).UserCloseCall?
    ensures h.target !in Last(Close(m, h).calls).sees
  {
  }

  /** Subscribing a new listener and unsubscribing it restores the listener list. */
  lemma SubscribeUnsubscribeRoundTrip(m: Manager, l: ListenerId)
    requires l !in m.listeners
    ensures Unsubscribe(Subscribe(m, l).0, Subscribe(m, l).1).listeners == m.listeners
  {
    DropDistributes(m.listeners, [l], l);
  }

  /**
   * After unsubscribing, a notification no longer reaches that listener,
   * and still reaches every other registered listener.
   */
  lemma UnsubscribeStopsOnlyThatListener(m: Manager, l: ListenerId)
    ensures forall i :: |m.calls| <= i < |Notify(Unsubscribe(m, l)).calls| ==>
              Notify(Unsubscribe(m, l)).calls[i].ListenerCall? &&
              Notify(Unsubscribe(m, l)).calls[i].listener != l
    ensures forall x :: x in m.listeners && x != l ==>
              ListenerCall(x, Ids(m.toasts)) in Notify(Unsubscribe(m, l)).calls[|m.calls|..]
  {
    var u := Unsubscribe(m, l);
    var n := Notify(u);
    forall x | x in m.listeners && x != l
      ensures ListenerCall(x, Ids(m.toasts)) in n.calls[|m.calls|..]
    {
      var i :| 0 <= i < |u.listeners| && u.listeners[i] == x;
      assert n.calls[|m.calls|..][i] == ListenerCall(x, Ids(m.toasts));
    }
  }

  // ----- Sequences of operations -----

  /** The operations a caller can reach on the manager object. */
  datatype Op =
    | AddOp(options: ToastOptions, id: ToastId)
    | RemoveOp(target: ToastId)
    | RemoveAllOp
    | CloseOp(handler: CloseHandler)

  /**
   * One operation. The listeners stay, the log only grows, `add` appends one
   * record with its id, and every other operation keeps only records that
   * were there.
   */
  function Apply(m: Manager, op: Op): (r: Manager)
    ensures r.listeners == m.listeners
    ensures m.calls <= r.calls
    ensures op.AddOp? ==> |r.toasts| == |m.toasts| + 1 && r.toasts[..|m.toasts|] == m.toasts
                          && Last(r.toasts).id == op.id
    ensures !op.AddOp? ==> forall t :: t in r.toasts ==> t in m.toasts && !(op.RemoveOp? && t.id == op.target)
  {
    match op
    case AddOp(o, id) => Add(m, o, id).0
    case RemoveOp(id) => Remove(m, id)
    case RemoveAllOp => RemoveAll(m)
    case CloseOp(h) => Close(m, h)
  }

  function Run(m: Manager, ops: seq<Op>): Manager
    decreases |ops|
  {
    if |ops| == 0 then m else Run(Apply(m, ops[0]), ops[1..])
  }

  /** The ids the oracle minted for the `add` calls of `ops`, in order. */
  function MintedIds(ops: seq<Op>): seq<ToastId>
    decreases |ops|
  {
    if |ops| == 0 then []
    else if ops[0].AddOp? then [ops[0].id] + MintedIds(ops[1..])
    else MintedIds(ops[1..])
  }

  /** The number of caller `onClose` callbacks the operations run. */
  function UserCloses(ops: seq<Op>): nat
    decreases |ops|
  {
    if |ops| == 0 then 0
    else if ops[0].CloseOp? && ops[0].handler.user.Some? then 1 + UserCloses(ops[1..])
    else UserCloses(ops[1..])
  }

  predicate Pairwise(s: seq<ToastId>) {
    forall i, j :: 0 <= i < j < |s| ==> s[i] != s[j]
  }

  lemma IdsMember(ts: seq<Toast>, x: ToastId)
    ensures x in Ids(ts) <==> exists t :: t in ts && t.id == x
  {
    if x in Ids(ts) {
      var i :| 0 <= i < |ts| && Ids(ts)[i] == x;
      assert ts[i] in ts;
    }
  }

  /** Each operation adds at most the id it minted to the ids in the store. */
  lemma ApplyIdsWithin(m: Manager, op: Op, x: ToastId)
    ensures x in Ids(Apply(m, op).toasts) ==> x in Ids(m.toasts) || (op.AddOp? && x == op.id)
  {
    if x !in Ids(Apply(m, op).toasts) {
      return;
    }
    IdsMember(Apply(m, op).toasts, x);
    IdsMember(m.toasts, x);
    var t :| t in Apply(m, op).toasts && t.id == x;
    match op
    case AddOp(o, id) =>
      var n := Add(m, o, id).0.toasts;
      var i :| 0 <= i < |n| && n[i] == t;
      if i < |m.toasts| {
        assert n[..|m.toasts|][i] == t;
        assert t in m.toasts;
      }
    case RemoveOp(_) =>
    case RemoveAllOp =>
    case CloseOp(h) =>
  }

  lemma ApplyKeepsDistinct(m: Manager, op: Op)
    requires DistinctIds(m.toasts)
    requires op.AddOp? ==> op.id !in Ids(m.toasts)
    ensures DistinctIds(Apply(m, op).toasts)
  {
    match op
    case AddOp(o, id) =>
      var n := Add(m, o, id).0.toasts;
      forall i, j | 0 <= i < j < |n|
        ensures n[i].id != n[j].id
      {
        assert n[..|m.toasts|] == m.toasts;
        if j == |m.toasts| {
          assert m.toasts[i].id == Ids(m.toasts)[i];
        } else {
          assert n[i] == m.toasts[i] && n[j] == m.toasts[j];
        }
      }
    case RemoveOp(id) =>
      WithoutKeepsDistinct(m.toasts, id);
    case RemoveAllOp =>
    case CloseOp(h) =>
      WithoutKeepsDistinct(m.toasts, h.target);
  }

  lemma {:induction false} WithoutKeepsDistinct(ts: seq<Toast>, id: ToastId)
    requires DistinctIds(ts)
    ensures DistinctIds(Without(ts, id))
  {
    if |ts| > 0 {
      WithoutKeepsDistinct(ts[1..], id);
      var rest := Without(ts[1..], id);
      if ts[0].id != id {
        var r := [ts[0]] + rest;
        forall j | 0 < j < |r|
          ensures r[0].id != r[j].id
        {
          assert r[j] in rest;
        }
      }
    }
  }

  /**
   * If the oracle mints ids that are pairwise distinct and not already in
   * the store, every reachable store has pairwise distinct ids.
   */
  lemma {:induction false} RunKeepsIdsDistinct(m: Manager, ops: seq<Op>)
    requires DistinctIds(m.toasts)
    requires Pairwise(MintedIds(ops))
    requires forall x :: x in MintedIds(ops) ==> x !in Ids(m.toasts)
    ensures DistinctIds(Run(m, ops).toasts)
    decreases |ops|
  {
    if |ops| > 0 {
      var op := ops[0];
      var next := Apply(m, op);
      if op.AddOp? {
        assert op.id in MintedIds(ops);
      }
      ApplyKeepsDistinct(m, op);
      var rest := MintedIds(ops[1..]);
      assert Pairwise(rest) by {
        if op.AddOp? {
          assert MintedIds(ops) == [op.id] + rest;
          forall i, j | 0 <= i < j < |rest|
            ensures rest[i] != rest[j]
          {
            assert rest[i] == MintedIds(ops)[i + 1] && rest[j] == MintedIds(ops)[j + 1];
          }
        }
      }
      forall x | x in rest
        ensures x !in Ids(next.toasts)
      {
        var k :| 0 <= k < |rest| && rest[k] == x;
        if op.AddOp? {
          assert MintedIds(ops) == [op.id] + rest;
          assert MintedIds(ops)[k + 1] == x && MintedIds(ops)[0] == op.id;
          assert x in MintedIds(ops);
        } else {
          assert MintedIds(ops) == rest;
        }
        assert x !in Ids(m.toasts);
        ApplyIdsWithin(m, op, x);
      }
      RunKeepsIdsDistinct(next, ops[1..]);
    }
  }

  /**
   * Every operation notifies exactly once and the listener list never
   * changes: the log grows by one broadcast per operation plus one entry per
   * caller `onClose` that ran.
   */
  lemma {:induction false} RunNotifiesOncePerOperation(m: Manager, ops: seq<Op>)
    ensures Run(m, ops).listeners == m.listeners
    ensures |Run(m, ops).calls| == |m.calls| + |ops| * |m.listeners| + UserCloses(ops)
    decreases |ops|
  {
    if |ops| > 0 {
      var next := Apply(m, ops[0]);
      ApplyNotifiesOnce(m, ops[0]);
      RunNotifiesOncePerOperation(next, ops[1..]);
      var n, l := |ops| - 1, |m.listeners|;
      assert (n + 1) * l == n * l + l;
    }
  }

  lemma ApplyNotifiesOnce(m: Manager, op: Op)
    ensures Apply(m, op).listeners == m.listeners
    ensures |Apply(m, op).calls| == |m.calls| + |m.listeners| + UserCloses([op])
  {
    assert [op][1..] == [];
  }

  /**
   * Ids are not guaranteed unique: when the clock and the random suffix
   * repeat, two records share an id, and removing it drops both.
   */
  lemma CollidingIdsRemovedTogether(a: ToastOptions, b: ToastOptions, id: ToastId)
    ensures !DistinctIds(Run(Create(), [AddOp(a, id), AddOp(b, id)]).toasts)
    ensures Run(Create(), [AddOp(a, id), AddOp(b, id), RemoveOp(id)]).toasts == []
  {
    var m1 := Add(Create(), a, id).0;
    var m2 := Add(m1, b, id).0;
    var m3 := Remove(m2, id);
    assert Run(m3, []) == m3;
    assert Run(m2, [RemoveOp(id)]) == m3;
    assert Run(m2, []) == m2;
    assert Run(m1, [AddOp(b, id)]) == m2;
    assert [AddOp(b, id), RemoveOp(id)][1..] == [RemoveOp(id)];
    assert Run(m1, [AddOp(b, id), RemoveOp(id)]) == m3;
    assert [AddOp(a, id), AddOp(b, id)][1..] == [AddOp(b, id)];
    assert [AddOp(a, id), AddOp(b, id), RemoveOp(id)][1..] == [AddOp(b, id), RemoveOp(id)];
    assert m2.toasts[0].id == id && m2.toasts[1].id == id;
  }
}

=== FILE: typography.dfy ===
/**
 * The tables the typography components share: font weights and text
 * alignment. `Text` and `Heading` each write these tables out; they are
 * identical and are defined once here.
 */
module TypeScale {
  datatype Weight = Light | Regular | Medium | Semibold | Bold

  datatype Align = AlignLeft | AlignCenter | AlignRight

  /** The `fontWeights` table. */
  function WeightClass(w: Weight): string {
    match w
    case Light => "font-light"
    case Regular => "font-normal"
    case Medium => "font-medium"
    case Semibold => "font-semibold"
    case Bold => "font-bold"
  }

  /** The `alignmentClass` table. */
  function AlignClass(a: Align): string {
    match a
    case AlignLeft => "text-left"
    case AlignCenter => "text-center"
    case AlignRight => "text-right"
  }

  /** Different weights give different classes, so the class names the weight. */
  lemma WeightClassInjective(a: Weight, b: Weight)
    requires WeightClass(a) == WeightClass(b)
    ensures a == b
  {
    var ca, cb := WeightClass(a), WeightClass(b);
    assert ca[5] == cb[5] && ca[6] == cb[6];
  }
}

/**
 * `Text`: a semantic variant chooses a default size, an element and a
 * variant class; the props add size, weight, alignment and modifier
 * classes.
 */
module TextStyle {
  import opened Js
  import opened ClassNames
  import opened TypeScale

  datatype Variant = P | Span | LabelVariant | Caption | Helper

  datatype TextSize = Xs | Sm | Base | Lg | Xl

  /** The element the component renders. */
  datatype Tag = PTag | SpanTag | LabelTag

  datatype Props = Props(
    size: Option<TextSize>,
    weight: Option<Weight>,
    align: Option<Align>,
    muted: Option<bool>,
    truncate: Option<bool>,
    preserveBreaks: Option<bool>,
    as_: Option<Variant>,
    className: Option<string>)

  function SizeClass(s: TextSize): string {
    match s
    case Xs => "text-xs"
    case Sm => "text-sm"
    case Base => "text-base"
    case Lg => "text-lg"
    case Xl => "text-xl"
  }

  /** The `textVariants` table: each variant's default size. */
  function DefaultSize(v: Variant): TextSize {
    match v
    case P => Base
    case Span => Base
    case LabelVariant => Sm
    case Caption => Xs
    case Helper => Xs
  }

  /** The `textVariants` table: each variant's own class. */
  function VariantClass(v: Variant): string {
    match v
    case P => "leading-7 [&:not(:first-child)]:mt-6"
    case Span => ""
    case LabelVariant => "font-medium"
    case Caption => ""
    case Helper => "italic"
  }

  /** `as`, defaulting to `p`. */
  function VariantOf(p: Props): Variant {
    p.as_.GetOr(P)
  }

  /** `size || variant.size`: an explicit size wins over the variant's default. */
  function FinalSize(p: Props): (s: TextSize)
    ensures p.size.Some? ==> s == p.size.value
    ensures p.size.None? ==> s == DefaultSize(VariantOf(p))
  {
    match p.size
    case Some(s) => s
    case None => DefaultSize(VariantOf(p))
  }

  /**
   * The element chosen by the three `if`s at the end of the component:
   * `label` exactly for the label variant, `span` exactly for span, and `p`
   * for the other three.
   */
  function ElementTag(v: Variant): (t: Tag)
    ensures t == LabelTag <==> v == LabelVariant
    ensures t == SpanTag <==> v == Span
    ensures t == PTag <==> v in {P, Caption, Helper}
  {
    match v
    case LabelVariant => LabelTag
    case Span => SpanTag
    case P | Caption | Helper => PTag
  }

  /** The argument list handed to the class joiner. */
  function ClassArgs(p: Props): seq<ClassArg> {
    var v := VariantOf(p);
    [ Cls(SizeClass(FinalSize(p))),
      Cls(match p.weight case Some(w) => WeightClass(w) case None => ""),
      Cls(AlignClass(p.align.GetOr(AlignLeft))),
      When(IsSet(p.muted), "text-muted-foreground"),
      When(IsSet(p.truncate), "truncate"),
      When(IsSet(p.preserveBreaks), "whitespace-pre-line"),
      Cls(VariantClass(v)),
      Passed(p.className) ]
  }

  /**
   * Without a size, the variant decides it: base for p and span, sm for
   * label, xs for caption and helper; `as` defaults to p, so a bare Text is
   * base size.
   */
  lemma DefaultSizes(p: Props)
    requires p.size.None?
    ensures VariantOf(p) in {P, Span} ==> FinalSize(p) == Base
    ensures VariantOf(p) == LabelVariant ==> FinalSize(p) == Sm
    ensures VariantOf(p) in {Caption, Helper} ==> FinalSize(p) == Xs
    ensures p.as_.None? ==> FinalSize(p) == Base
  {
  }

  /**
   * The classes taken from the tables (size, weight, alignment, variant)
   * are never one of the three modifier classes: none has their length.
   */
  lemma TableSlotsAreNotModifiers(p: Props)
    ensures forall j :: (0 <= j < 3 || j == 6) ==>
              ClassArgs(p)[j].Cls? && |ClassArgs(p)[j].name| !in {8, 19, 21}
  {
    var args := ClassArgs(p);
    assert |args[0].name| in {7, 9} by {
      match FinalSize(p)
      case Xs => case Sm => case Base => case Lg => case Xl =>
    }
    assert |args[1].name| in {0, 9, 10, 11, 13} by {
      match p.weight
      case None =>
      case Some(w) =>
        match w
        case Light => case Regular => case Medium => case Semibold => case Bold =>
    }
    assert |args[2].name| in {9, 10, 11} by {
      match p.align.GetOr(AlignLeft)
      case AlignLeft => case AlignCenter => case AlignRight =>
    }
    assert |args[6].name| in {0, 6, 11, 36} by {
      match VariantOf(p)
      case P => case Span => case LabelVariant => case Caption => case Helper =>
    }
  }

  /**
   * A modifier flag adds its own class; and its class is present only when
   * the flag is set or the caller's `className` is that very class.
   */
  lemma {:induction false} ModifierSlot(p: Props, slot: nat, flag: Option<bool>, c: string)
    requires slot in {3, 4, 5} && |c| in {8, 19, 21}
    requires ClassArgs(p)[slot] == When(IsSet(flag), c)
    requires forall j :: 3 <= j < 6 && j != slot ==> ClassArgs(p)[j] != Cls(c)
    ensures IsSet(flag) ==> c in Active(ClassArgs(p))
    ensures c in Active(ClassArgs(p)) ==> IsSet(flag) || p.className == Some(c)
  {
    var args := ClassArgs(p);
    TableSlotsAreNotModifiers(p);
    if c in Active(args) {
      var j :| 0 <= j < |args| && args[j] == Cls(c);
      if j == 7 {
        assert Passed(p.className) == Cls(c);
      }
    }
  }

  /**
   * `muted`, `truncate` and `preserveBreaks` each add exactly their own
   * class, up to a caller `className` naming it.
   */
  lemma ModifierClasses(p: Props)
    ensures IsSet(p.muted) ==> "text-muted-foreground" in Active(ClassArgs(p))
    ensures "text-muted-foreground" in Active(ClassArgs(p)) ==>
              IsSet(p.muted) || p.className == Some("text-muted-foreground")
    ensures IsSet(p.truncate) ==> "truncate" in Active(ClassArgs(p))
    ensures "truncate" in Active(ClassArgs(p)) ==> IsSet(p.truncate) || p.className == Some("truncate")
    ensures IsSet(p.preserveBreaks) ==> "whitespace-pre-line" in Active(ClassArgs(p))
    ensures "whitespace-pre-line" in Active(ClassArgs(p)) ==>
              IsSet(p.preserveBreaks) || p.className == Some("whitespace-pre-line")
  {
    var args := ClassArgs(p);
    assert args[3] == When(IsSet(p.muted), "text-muted-foreground");
    assert args[4] == When(IsSet(p.truncate), "truncate");
    assert args[5] == When(IsSet(p.preserveBreaks), "whitespace-pre-line");
    ModifierSlot(p, 3, p.muted, "text-muted-foreground");
    ModifierSlot(p, 4, p.truncate, "truncate");
    ModifierSlot(p, 5, p.preserveBreaks, "whitespace-pre-line");
  }

  /**
   * The weight slot holds the given weight's class, and the empty string
   * without a weight; the `label` variant's own class is "font-medium", so
   * a label is medium even then. The given alignment's class is passed, and
   * left without one.
   */
  lemma WeightAndAlignClasses(p: Props)
    ensures p.weight.None? ==> ClassArgs(p)[1] == Cls("")
    ensures p.weight.Some? ==> WeightClass(p.weight.value) in Active(ClassArgs(p))
    ensures p.align.Some? ==> AlignClass(p.align.value) in Active(ClassArgs(p))
    ensures p.align.None? ==> "text-left" in Active(ClassArgs(p))
  {
    var args := ClassArgs(p);
    if p.weight.Some? {
      assert args[1] == Cls(WeightClass(p.weight.value));
      assert |WeightClass(p.weight.value)| > 0;
    }
    assert args[2] == Cls(AlignClass(p.align.GetOr(AlignLeft)));
    assert |AlignClass(p.align.GetOr(AlignLeft))| > 0;
  }

  /** The variant's class and then the caller's `className` close the list, so the caller's classes come last. */
  lemma CallerClassLast(p: Props)
    ensures |ClassArgs(p)| == 8
    ensures ClassArgs(p)[6..] == [Cls(VariantClass(VariantOf(p))), Passed(p.className)]
    ensures p.className.Some? && p.className.value != "" ==>
              Active(ClassArgs(p))[|Active(ClassArgs(p))| - 1] == p.className.value
  {
    var args := ClassArgs(p);
    if p.className.Some? && p.className.value != "" {
      ActiveEndsWith(args, p.className.value);
    }
  }

  lemma {:induction false} ActiveEndsWith(args: seq<ClassArg>, c: string)
    requires |args| > 0 && args[|args| - 1] == Cls(c) && c != ""
    ensures |Active(args)| > 0 && Active(args)[|Active(args)| - 1] == c
    decreases |args|
  {
    if |args| > 1 {
      ActiveEndsWith(args[1..], c);
    }
  }
}

/**
 * `Heading`: `h1` to `h6`, with a fixed size class per level and optional
 * weight, alignment and truncation.
 */
module HeadingStyle {
  import opened Js
  import opened ClassNames
  import opened TypeScale

  type Level = l: int | 1 <= l <= 6 witness 1

  datatype Props = Props(
    level: Level,
    weight: Option<Weight>,
    align: Option<Align>,
    truncate: Option<bool>,
    className: Option<string>)

  /** `` `h${level}` ``: "h" followed by the level's one decimal digit. */
  function Tag(l: Level): (t: string)
    ensures |t| == 2 && t[0] == 'h'
    ensures '1' <= t[1] <= '6' && t[1] as int - '0' as int == l
  {
    "h" + [('0' as int + l) as char]
  }

  /** The level a tag names, if it names one. */
  function LevelOfTag(tag: string): (r: Option<Level>)
    ensures r.Some? ==> Tag(r.value) == tag
  {
    if |tag| == 2 && tag[0] == 'h' && '1' <= tag[1] <= '6'
    then
      var l := tag[1] as int - '0' as int;
      assert tag == "h" + [tag[1]];
      Some(l)
    else None
  }

  /** Every level renders its own element `h1` to `h6`, and the tag gives the level back. */
  lemma TagRoundTrip(l: Level)
    ensures LevelOfTag(Tag(l)) == Some(l)
    ensures |Tag(l)| == 2 && Tag(l)[0] == 'h'
  {
  }

  /** The `headingSizes` table. */
  function SizeClass(l: Level): string {
    match l
    case 1 => "text-4xl md:text-5xl font-bold tracking-tight"
    case 2 => "text-3xl md:text-4xl font-bold tracking-tight"
    case 3 => "text-2xl md:text-3xl font-semibold"
    case 4 => "text-xl md:text-2xl font-semibold"
    case 5 => "text-lg md:text-xl font-medium"
    case _ => "text-base md:text-lg font-medium"
  }

  /** The argument list handed to the class joiner. */
  function ClassArgs(p: Props): seq<ClassArg> {
    [ Cls(SizeClass(p.level)),
      match p.weight case Some(w) => Cls(WeightClass(w)) case None => Off,
      Cls(AlignClass(p.align.GetOr(AlignLeft))),
      When(IsSet(p.truncate), "truncate"),
      Cls("text-foreground"),
      Passed(p.className) ]
  }

  /** Each level has its own size class. */
  lemma SizeClassInjective(a: Level, b: Level)
    requires SizeClass(a) == SizeClass(b)
    ensures a == b
  {
  }

  /**
   * The level's size class and `text-foreground` are always passed; the
   * weight slot holds the given weight's class and is empty without one,
   * though every size class carries its own `font-*` weight; the given
   * alignment's class is passed, and left without one; the caller's
   * `className` comes last.
   */
  lemma ClassListShape(p: Props)
    ensures SizeClass(p.level) in Active(ClassArgs(p))
    ensures "text-foreground" in Active(ClassArgs(p))
    ensures p.weight.None? ==> ClassArgs(p)[1] == Off
    ensures p.weight.Some? ==> WeightClass(p.weight.value) in Active(ClassArgs(p))
    ensures p.align.Some? ==> AlignClass(p.align.value) in Active(ClassArgs(p))
    ensures p.align.None? ==> "text-left" in Active(ClassArgs(p))
    ensures ClassArgs(p)[|ClassArgs(p)| - 1] == Passed(p.className)
  {
    var args := ClassArgs(p);
    assert args[0] == Cls(SizeClass(p.level)) && |SizeClass(p.level)| > 0;
    assert args[4] == Cls("text-foreground");
    if p.weight.Some? {
      assert args[1] == Cls(WeightClass(p.weight.value));
      assert |WeightClass(p.weight.value)| > 0;
    }
    assert args[2] == Cls(AlignClass(p.align.GetOr(AlignLeft)));
    assert |AlignClass(p.align.GetOr(AlignLeft))| > 0;
  }

  /** Only the truncate slot and the caller's slot can hold `truncate`: every table class has another length. */
  lemma TruncateSlot(p: Props)
    ensures Cls("truncate") in ClassArgs(p) <==> IsSet(p.truncate) || p.className == Some("truncate")
  {
    var args := ClassArgs(p);
    assert |args[0].name| > 8 by {
      match p.level
      case 1 => case 2 => case 3 => case 4 => case 5 => case 6 =>
    }
    assert args[1] == Off || |args[1].name| in {9, 10, 11, 13} by {
      match p.weight
      case None =>
      case Some(w) =>
        match w
        case Light => case Regular => case Medium => case Semibold => case Bold =>
    }
    assert |args[2].name| in {9, 10, 11} by {
      match p.align.GetOr(AlignLeft)
      case AlignLeft => case AlignCenter => case AlignRight =>
    }
    assert |args[4].name| == 15;
    assert args[3] == When(IsSet(p.truncate), "truncate");
    assert args[5] == Passed(p.className);
  }

  /** `truncate` adds its class, and the class is present only when asked for or named by the caller's `className`. */
  lemma TruncateClass(p: Props)
    ensures IsSet(p.truncate) ==> "truncate" in Active(ClassArgs(p))
    ensures "truncate" in Active(ClassArgs(p)) ==> IsSet(p.truncate) || p.className == Some("truncate")
  {
    TruncateSlot(p);
  }
}
